=== FILE: README.md ===
# Smart document search: a Dafny model of the chunking core

The service takes a document and cuts it into overlapping chunks. It embeds each chunk with an
embedding provider and stores it in a vector store. Later it answers queries by embedding the
query and searching the store.

This project models the parts of `main.go` that are pure logic:

- **The three chunking functions.**
  - `chunkByWords` splits the text into white-space separated fields.
  - `chunkBySentences` splits on `.`, `!` and `?`, then trims each piece and drops empty ones.
  - `chunkByParagraphs` splits on a blank line `"\n\n"`, then trims and drops the same way.

  Each function slides a window of `chunkSize` units over the unit list. The step is
  `chunkSize - overlap`, computed in Go's 64-bit `int` and clamped to 1 when that is not
  positive. The window end is clamped to
  the unit count. The walk stops after the first window that reaches the end.

  A text with no more units than `chunkSize` comes back whole, untrimmed, as the only chunk.
- **The processing handler after request binding.**
  - It refuses an empty text.
  - It dispatches on exactly three strategy names and refuses any other name.
  - It then embeds and uploads the chunks in order, counting successes. It stops at the first
    chunk whose embedding or upload fails, and the error names that chunk's index.
- **The query handler after request binding.**
  - It refuses an empty query.
  - It embeds the query and searches with a limit: `topK`, or 5 when `topK <= 0`.
  - It projects each hit to its id, score and `text` payload. A missing or non-string payload
    becomes `""`.

The embedding provider and the vector store are caller-supplied fallible functions (`Gateways`).
The embedder and the uploader also receive the position of the call within the request, so a
model run can let any one embedding or upload fail. The searcher is called at most once per
request and receives only the vector and the limit. The handlers return their outcome together with the trace of calls they made, so "no
call was made" and "processing stopped at chunk i" are statements about that trace.

Files:

- `results.dfy`: the `Option` and `Result` types.
- `text.dfy`: the Go standard-library string operations the chunkers use:
  - `unicode.IsSpace`, `strings.TrimSpace`, `strings.Fields`, `strings.Join`, `strings.Split`;
  - splitting on a character-class regular expression.
- `windowing.dfy`: the window walk shared by all three strategies, over a unit count.
- `segmenter.dfy`:
  - the units of each strategy and the join rule of each strategy;
  - the generic `ChunkUnits`, and the loop as the service writes it (`ChunkLoop`);
  - the three `ChunkBy*` functions and the properties of their chunks.
- `gateways.dfy`: the oracle types and the store's data.
- `ingestion.dfy`: the processing handler.
- `query.dfy`: the query handler and the search projection.

Chunk-size semantics follow the code:

- A chunk size of 0 is well defined. When the text has units, every window is empty, so every
  chunk renders no unit: `""` for words and paragraphs, `"."` for sentences. There is one such
  chunk per step along the unit list. The segmenter accepts this size.
- A negative chunk size over a non-empty unit list makes Go's slice `units[i:end]` panic. The
  segmenter requires `size >= 0 || units empty`. The processing handler checks first and
  reports `SegmentationPanic`, which the service's recovery middleware turns into a 500.
  Negative sizes therefore reach an error outcome instead of being excluded by a precondition.
- Nothing in the handler refuses a chunk size of 0 or less. A size of 0 produces the empty
  chunks above and sends them to the embedding provider. A negative size reaches the panic.
- Request sizes, overlaps and `topK` are `GoInt`, the range of Go's 64-bit `int`; larger JSON
  numbers fail to bind. `size - overlap` can leave that range, and Go wraps it around (`Wrap`). For
  example a size of 1 and an overlap of -2^63 wrap to a step of -2^63 + 1, which is clamped
  to 1, so three words give three one-word chunks.
- A negative overlap makes the step larger than the size. Such windows skip units, and the walk
  can end without a window reaching the last unit. The windowing lemmas on coverage, overlap,
  window count and the last window are stated for a step no larger than the size. That is
  `overlap >= 0`, or a `size - overlap` that wraps and is clamped to 1. The chunk-level
  versions in `Segmenter` are stated for `overlap >= 0`.

## Model

| member | source | states |
|---|---|---|
| Text.TrimSpace | main.go:302-303 | the result has no white space at either end and is the infix of the input after its leading white space; everything after it is white space |
| Text.TrimSpacePadded | main.go:302-303 | trimming white space followed by a trimmed non-empty string gives that string back |
| Text.Fields | main.go:271 | every field is a non-empty run without white space |
| Text.FieldsKeepsAllLetters | main.go:271 | the fields concatenate to exactly the non-space characters of the input, so splitting loses only white space |
| Text.FieldsOfJoin | main.go:271 | words joined with single spaces split back into the same words |
| Text.SplitAny | main.go:298-299 | at least one piece, and no piece of the `[.!?]` split holds a delimiter |
| Text.SplitAnyRebuilds | main.go:298-299 | the pieces and the removed delimiters, interleaved, rebuild the input, with one more piece than delimiters |
| Text.SplitAnyStep | main.go:298-299 | a delimiter-free prefix ending at a delimiter is split off as the first piece |
| Text.IndexFrom | main.go:332 | finds an occurrence of the separator, and no occurrence lies earlier |
| Text.SplitOn | main.go:332 | at least one piece; no piece holds the separator; and every cut is at the leftmost occurrence, since no piece but the last, followed by all of the separator but its last character, holds the separator |
| Text.CutIsLeftmost | main.go:332 | the text before the leftmost occurrence of the separator, followed by all of the separator but its last character, holds no occurrence |
| Text.Join | main.go:287 | no parts give ""; otherwise the result starts with the first part and its length is the parts' total plus one separator between each consecutive pair |
| Text.JoinPlacesParts | main.go:287 | part i of the joined text sits after the earlier parts and one separator after each, and every part but the last is followed by the separator; with `Join`'s length this fixes every character |
| Text.JoinSplitOn | main.go:332 | joining the pieces of the split with the separator gives the input back |
| Windowing.Wrap | main.go:277 | a value inside Go's `int` range is unchanged; one up to 2^64 outside it is shifted back by 2^64 |
| Windowing.Step | main.go:277-280 | the step is at least 1: the 64-bit wrapped `size - overlap` when that is positive, 1 otherwise; without wrap-around, `size - overlap` when positive |
| Windowing.Windows | main.go:282-291 | there is a window exactly when there are units, and the first one is `[0, min(size, n))` |
| Windowing.WindowsFrom | main.go:282-291 | the walk emits a window exactly when its start is below the unit count |
| Windowing.WindowAt | main.go:282-287 | window k of a walk starts k steps in, before the end, and ends `size` units later or at the end |
| Windowing.WindowShape | main.go:282-287 | window k covers `[k*step, min(k*step + size, n))`; with a positive size it holds between 1 and `size` units |
| Windowing.LastWindowStops | main.go:282-291 | the last window either reaches the unit count or its successor would start at or past it |
| Windowing.LastWindowEndsAtCount | main.go:282-291 | with a positive size and a step no larger than it, the last window ends exactly at the unit count and no earlier window does, so the final window is emitted once |
| Windowing.ConsecutiveWindowsOverlap | main.go:282-291 | with a positive size and a step no larger than it, consecutive windows share exactly `size - step` units |
| Windowing.WindowCount | main.go:282-291 | with a positive size below the unit count and a step no larger than it, the number of windows is the first k whose nominal end `k*step + size` reaches the unit count |
| Windowing.ClampedWindowCount | main.go:277-291 | whenever the wrapped `size - overlap` is not positive, whether from overlap >= size or from wrap-around, the step is 1 and `n > size` units give exactly `n - size + 1` windows |
| Windowing.WindowsCoverAllUnits | main.go:282-291 | with a positive size and a step no larger than it, every unit lies in some window |
| Windowing.LowestOverlapWrapsToStepOne | main.go:277-291 | size 1 with overlap -2^63 wraps to a non-positive step, is clamped to 1, and three units give three one-unit windows |
| Windowing.TwelveUnitsFiveWideOverlapTwo | main.go:277-291 | twelve units, size five, overlap two give the windows [0,5), [3,8), [6,11), [9,12) |
| Segmenter.TrimAndDrop | main.go:300-305 | piece i survives exactly when it trims to something non-empty, and then it appears trimmed at the position counting the surviving pieces before it; nothing else is kept |
| Segmenter.TrimAndDropOfUnits | main.go:300-305 | pieces that are already trimmed and non-empty pass through unchanged |
| Segmenter.SentenceUnits | main.go:298-305 | every sentence is non-empty, trimmed and free of `.`, `!` and `?` |
| Segmenter.ParagraphUnits | main.go:332-338 | every paragraph is non-empty, trimmed and holds no blank line |
| Segmenter.UnitsOf | main.go:270-338 | every unit of every strategy is non-empty, trimmed and holds no delimiter of its strategy |
| Segmenter.SentencesRoundTrip | main.go:298-305 | sentences joined with ". " and closed with "." split back into the same sentences |
| Segmenter.ParagraphsRoundTrip | main.go:332-338 | paragraphs joined with blank lines split back into the same paragraphs |
| Segmenter.RenderThenSplit | main.go:287 | a window rendered with its strategy's join rule splits back into its units under that strategy |
| Segmenter.RenderWindows | main.go:282-291 | one chunk per window |
| Segmenter.RenderedWindowResegments | main.go:287 | window k, rendered and split again, gives back the units it covers |
| Segmenter.Segment | main.go:146-153 | a strategy's chunks are its units windowed: `[text]` at or below the size, otherwise one chunk per window of the unit list |
| Segmenter.ChunkUnits | main.go:273-291 | no more units than the size give `[text]`; otherwise one chunk per window of the walk, and none exactly when there are no units |
| Segmenter.RenderedFromWindows | main.go:282-291 | what the loop emits from index i is the windows of the walk from i, rendered |
| Segmenter.WindowLoop | main.go:282-291 | the loop with its clamp and break emits exactly the rendered walk |
| Segmenter.WalkIsChunkUnits | main.go:277-291 | above the size threshold the chunks are the walk with the clamped step, rendered |
| Segmenter.ChunkLoop | main.go:270-292 | the loop version of a chunker returns exactly the generic windowing result |
| Segmenter.ChunkByWords | main.go:270-293 | few words give `[text]`; otherwise one chunk per window, and each chunk's fields are exactly that window's words |
| Segmenter.ChunkBySentences | main.go:296-328 | few sentences give `[text]`; otherwise one chunk per window, and each chunk splits back into that window's sentences |
| Segmenter.ChunkByParagraphs | main.go:331-361 | few paragraphs give `[text]`; otherwise one chunk per window, and each chunk splits back into that window's paragraphs |
| Segmenter.ChunkIsJoinedWindow | main.go:287 | chunk k is window k's units joined with " ", with ". " plus a closing ".", or with "\n\n", per strategy |
| Segmenter.ChunkResegments | main.go:282-291 | splitting chunk k again yields exactly the units of window k |
| Segmenter.ChunkHoldsAtMostSize | main.go:282-287 | with a positive size and more units than the size, every chunk holds between 1 and `size` units |
| Segmenter.ConsecutiveChunksShareUnits | main.go:282-291 | with a positive size, more units than the size and overlap >= 0, the last `size - step` units of chunk k are the first of chunk k+1 |
| Segmenter.LastChunkReachesEnd | main.go:282-291 | with a positive size, more units than the size and overlap >= 0, the last chunk ends with the text's last unit |
| Segmenter.ZeroSizeChunksAreEmpty | main.go:277-287 | with chunk size 0 every window of a text with units is empty, and every chunk is the strategy's rendering of no units |
| Segmenter.ClampedChunkCount | main.go:277-291 | whenever the wrapped `size - overlap` is not positive, a text of n > size units gives n - size + 1 chunks |
| Ingestion.ParseStrategy | main.go:147-156 | a recognised name is exactly the name of its strategy; no strategy has an unrecognised name |
| Ingestion.Status | main.go:141-175 | 200 exactly for success, 400 exactly for empty text or unknown strategy, 500 otherwise |
| Ingestion.ChunkError | main.go:160-168 | a failing chunk's error is an embedding error exactly when its embedding failed; it names the chunk and carries the error the failing embedder or uploader returned |
| Ingestion.UploadChunks | main.go:158-175 | all chunks succeed and the count is the chunk count; or processing stops at the first failing chunk, whose index the error names, after exactly the calls of the chunks up to it |
| Ingestion.ProcessDocument | main.go:141-175 | empty text and unknown strategies are refused with no call made; a negative size over a text with units ends in the slice panic with no call made; otherwise the strategy's chunks go through the upload loop |
| Ingestion.StoredCountMatchesOutcome | main.go:158-170 | the trace shows every chunk stored on success, and exactly i stored chunks when chunk i failed |
| Ingestion.CallsCarryTheirChunk | main.go:159-164 | every call concerns a chunk up to the last one reached, carries its text, and every upload stores the vector its embedding just returned |
| Query.SearchLimit | main.go:240-242 | a positive `topK` is used unchanged, anything else becomes 5 |
| Query.PayloadText | main.go:254-257 | a missing `text` entry or a non-string one gives "", a string gives that string |
| Query.IdText | main.go:259 | the id text is the point's UUID, or "" for a numeric id |
| Query.Project | main.go:253-262 | one match per hit, in the store's order, with the hit's id, score and payload text |
| Query.RunQuery | main.go:185-199 | an empty query is refused with no call; a failed embedding stops before the search and is reported with the embedder's error; the search uses the embedding and the search limit, and its result is the searcher's answer; a failed search is reported with its cause; success returns the projected hits |
| Query.QueryStatus | main.go:185-199 | 200 exactly for success, 400 exactly for an empty query, 500 otherwise |

## Left out

- Request binding, JSON encoding of the responses and their message strings, CORS, logging and
  route registration: transport plumbing with no logic of its own. A body that fails to bind is
  a 400 before anything modelled here runs.
- The gRPC connection and `createCollectionIfNotExists`: foreign network calls. The store
  appears only as the `Uploader` and `Searcher` oracles.
- The OpenAI embedding call and its float vectors: an external provider. It appears as the
  `Embedder` oracle, and vectors pass through it untouched.
- The `float32` similarity scores the store returns: they are modelled as `real` and only copied
  from each hit to its match. No arithmetic is done on them, so their rounding is not modelled.
- Random point UUIDs and the unused `chunk-%d` tag of an upload: they are nondeterministic, or
  nothing observes them.
- The `null` JSON body the query endpoint sends when the search has no hits: Go encodes the nil
  match slice as `null`. The model returns an empty sequence.
- Go's 64-bit arithmetic in `i + chunkSize` and `i += step`: the model adds unbounded. These sums
  cannot overflow in Go. The walk runs only when `chunkSize` is below the unit count n, so
  `i + chunkSize` stays below 2n. `i += step` starts either from 0, giving `step`, which is a Go
  int, or from some `i >= step` below n, giving less than 2n. The wrap-around of
  `chunkSize - overlap`, which can happen, is modelled.
- Text.Fields: the contract states well-formed fields and, through `FieldsKeepsAllLetters`,
  that no non-space character is lost. It does not prove separately that each field is maximal.
- Text.SplitAny: the contract does not itself say that the split is maximal. That the pieces
  and the removed delimiters rebuild the input is carried by `SplitAnyRebuilds`.

=== FILE: gateways.dfy ===
/** The two external services the handlers talk to, the embedding provider and
    the vector store, as fallible functions supplied by the caller. Each call is
    numbered by its position within one request, so a provider may fail on some
    calls and succeed on others. */
module Gateways {
  import opened Results

  /** An embedding vector. Its values are handed from the provider to the
      store unchanged, so nothing here looks inside them. */
  datatype Embedding = Embedding(values: seq<real>)

  /** Embeds the text of call number `position`, or says why it could not. */
  type Embedder = (nat, string) -> Result<Embedding, string>

  /** Stores one chunk with its vector under the text payload, or says why it
      could not. */
  type Uploader = (nat, string, Embedding) -> Result<(), string>

  /** An identifier of a stored point: the store hands out UUID strings or numbers. */
  datatype PointId = Uuid(uuid: string) | Num(num: nat)

  /** A payload value: only string values carry text. */
  datatype PayloadValue = StringValue(s: string) | OtherValue

  /** One search hit as the store returns it, best first. */
  datatype ScoredPoint = ScoredPoint(id: PointId, score: real, payload: map<string, PayloadValue>)

  /** Searches with a vector for at most `limit` points, or says why it could not. */
  type Searcher = (Embedding, nat) -> Result<seq<ScoredPoint>, string>
}

=== FILE: ingestion.dfy ===
/** The control logic of the document-processing endpoint: validate the request,
    dispatch on the chunking strategy, then embed and store the chunks one after
    another, stopping at the first chunk that fails. */
module Ingestion {
  import opened Results
  import opened Segmenter
  import opened Gateways
  import opened Windowing

  /** The fields of a processing request, as bound from its JSON body. */
  datatype ProcessRequest = ProcessRequest(text: string, chunkStrategy: string, chunkSize: GoInt, overlap: GoInt)

  /** The name a request uses for each strategy. */
  function StrategyName(st: Strategy): string {
    match st
    case Words => "words"
    case Sentences => "sentences"
    case Paragraphs => "paragraphs"
  }

  /** The strategy a request names. Exactly the three names are accepted, as
      written: case and surrounding white space matter. */
  function ParseStrategy(name: string): (r: Option<Strategy>)
    ensures r.Some? ==> StrategyName(r.value) == name
    ensures r.None? ==> forall st: Strategy :: StrategyName(st) != name
  {
    if name == "words" then Some(Words)
    else if name == "sentences" then Some(Sentences)
    else if name == "paragraphs" then Some(Paragraphs)
    else None
  }

  /** Why a request was not fully processed. The two indexed failures name the
      chunk at which processing stopped. */
  datatype IngestError =
    | EmptyText
    | InvalidStrategy
    | SegmentationPanic
    | EmbeddingFailed(index: nat, cause: string)
    | UploadFailed(index: nat, cause: string)

  /** A call to an external service made while processing, with its result. */
  datatype Call =
    | Embedded(index: nat, text: string, embedding: Result<Embedding, string>)
    | Uploaded(index: nat, text: string, vector: Embedding, stored: Result<(), string>)

  /** The HTTP status of an outcome: bad requests are 400, failures of the
      services (and the recovered slice panic) are 500. */
  function Status(outcome: Result<nat, IngestError>): (code: nat)
    ensures code == 200 <==> outcome.Ok?
    ensures code == 400 <==> outcome.Err? && (outcome.error == EmptyText || outcome.error == InvalidStrategy)
    ensures code == 200 || code == 400 || code == 500
  {
    match outcome
    case Ok(_) => 200
    case Err(EmptyText) => 400
    case Err(InvalidStrategy) => 400
    case Err(_) => 500
  }

  /** Segmenting a non-empty unit list with a negative chunk size slices out of
      range; the service's recovery middleware turns the panic into a 500. */
  predicate SegmentationPanics(st: Strategy, req: ProcessRequest) {
    req.chunkSize < 0 && |UnitsOf(st, req.text)| > 0
  }

  // ---------------------------------------------------------------------------
  // One chunk

  /** Chunk `i` is embedded and then stored, both without error. */
  predicate ChunkSucceeds(chunks: seq<string>, i: nat, embed: Embedder, upload: Uploader)
    requires i < |chunks|
  {
    var e := embed(i, chunks[i]);
    e.Ok? && upload(i, chunks[i], e.value).Ok?
  }

  /** The error a failing chunk reports: its embedding error if the embedding
      failed, otherwise its upload error. */
  function ChunkError(chunks: seq<string>, i: nat, embed: Embedder, upload: Uploader): (e: IngestError)
    requires i < |chunks| && !ChunkSucceeds(chunks, i, embed, upload)
    ensures e.EmbeddingFailed? <==> embed(i, chunks[i]).Err?
    ensures (e.EmbeddingFailed? || e.UploadFailed?) && e.index == i
    ensures e.EmbeddingFailed? ==> e.cause == embed(i, chunks[i]).error
    ensures e.UploadFailed? ==> e.cause == upload(i, chunks[i], embed(i, chunks[i]).value).error
  {
    var r := embed(i, chunks[i]);
    if r.Err? then EmbeddingFailed(i, r.error)
    else UploadFailed(i, upload(i, chunks[i], r.value).error)
  }

  /** The calls chunk `i` makes: its embedding, then its upload only when the
      embedding succeeded, with the vector the embedding returned. */
  function ChunkCalls(chunks: seq<string>, i: nat, embed: Embedder, upload: Uploader): seq<Call>
    requires i < |chunks|
  {
    var e := embed(i, chunks[i]);
    if e.Err? then [Embedded(i, chunks[i], e)]
    else [Embedded(i, chunks[i], e), Uploaded(i, chunks[i], e.value, upload(i, chunks[i], e.value))]
  }

  /** The calls the first `k` chunks make, in order. */
  function CallsFor(chunks: seq<string>, k: nat, embed: Embedder, upload: Uploader): seq<Call>
    requires k <= |chunks|
  {
    if k == 0 then [] else CallsFor(chunks, k - 1, embed, upload) + ChunkCalls(chunks, k - 1, embed, upload)
  }

  /** The number of calls that stored a chunk. */
  function StoredCount(calls: seq<Call>): nat {
    if |calls| == 0 then 0
    else
      var last := calls[|calls| - 1];
      StoredCount(calls[..|calls| - 1]) + (if last.Uploaded? && last.stored.Ok? then 1 else 0)
  }

  // ---------------------------------------------------------------------------
  // The upload loop

  /** What the loop over the chunks promises. When every chunk succeeds, the
      count reported is the number of chunks. Otherwise processing stopped at
      the first failing chunk `i`: every earlier chunk succeeded, the error names
      `i` and says which call failed, and no call was made after chunk `i`'s. */
  predicate UploadRun(chunks: seq<string>, embed: Embedder, upload: Uploader,
                      outcome: Result<nat, IngestError>, calls: seq<Call>)
  {
    match outcome
    case Ok(uploaded) =>
      && uploaded == |chunks|
      && (forall i :: 0 <= i < |chunks| ==> ChunkSucceeds(chunks, i, embed, upload))
      && calls == CallsFor(chunks, |chunks|, embed, upload)
    case Err(e) =>
      && (e.EmbeddingFailed? || e.UploadFailed?)
      && e.index < |chunks|
      && (forall j :: 0 <= j < e.index ==> ChunkSucceeds(chunks, j, embed, upload))
      && !ChunkSucceeds(chunks, e.index, embed, upload)
      && e == ChunkError(chunks, e.index, embed, upload)
      && calls == CallsFor(chunks, e.index + 1, embed, upload)
  }

  /** The embed-then-upload loop with its success counter. */
  method UploadChunks(chunks: seq<string>, embed: Embedder, upload: Uploader)
    returns (outcome: Result<nat, IngestError>, calls: seq<Call>)
    ensures UploadRun(chunks, embed, upload, outcome, calls)
  {
    calls := [];
    var uploaded: nat := 0;
    var i := 0;
    while i < |chunks|
      invariant i <= |chunks|
      invariant uploaded == i
      invariant forall j :: 0 <= j < i ==> ChunkSucceeds(chunks, j, embed, upload)
      invariant calls == CallsFor(chunks, i, embed, upload)
    {
      var embedding := embed(i, chunks[i]);
      if embedding.Err? {
        calls := calls + [Embedded(i, chunks[i], embedding)];
        return Err(EmbeddingFailed(i, embedding.error)), calls;
      }
      var stored := upload(i, chunks[i], embedding.value);
      calls := calls + [Embedded(i, chunks[i], embedding), Uploaded(i, chunks[i], embedding.value, stored)];
      if stored.Err? {
        return Err(UploadFailed(i, stored.error)), calls;
      }
      uploaded := uploaded + 1;
      i := i + 1;
    }
    outcome := Ok(uploaded);
  }

  /** The processing endpoint after binding: empty text and unknown strategies
      are refused before any service is called; otherwise the text is chunked
      with the named strategy and the chunks are embedded and stored in order. */
  method ProcessDocument(req: ProcessRequest, embed: Embedder, upload: Uploader)
    returns (outcome: Result<nat, IngestError>, calls: seq<Call>)
    ensures req.text == "" ==> outcome == Err(EmptyText) && calls == []
    ensures req.text != "" && ParseStrategy(req.chunkStrategy).None? ==>
      outcome == Err(InvalidStrategy) && calls == []
    ensures req.text != "" && ParseStrategy(req.chunkStrategy).Some? ==>
      var st := ParseStrategy(req.chunkStrategy).value;
      if SegmentationPanics(st, req) then outcome == Err(SegmentationPanic) && calls == []
      else UploadRun(Segment(st, req.text, req.chunkSize, req.overlap), embed, upload, outcome, calls)
  {
    if req.text == "" {
      return Err(EmptyText), [];
    }
    var strategy := ParseStrategy(req.chunkStrategy);
    if strategy.None? {
      return Err(InvalidStrategy), [];
    }
    var st := strategy.value;
    var units := UnitsOf(st, req.text);
    if req.chunkSize < 0 && |units| > 0 {
      return Err(SegmentationPanic), [];
    }
    var chunks := ChunkLoop(req.text, units, req.chunkSize, req.overlap, RuleOf(st));
    outcome, calls := UploadChunks(chunks, embed, upload);
  }

  // ---------------------------------------------------------------------------
  // What the call trace shows

  lemma {:induction false} StoredCountAppend(a: seq<Call>, b: seq<Call>)
    ensures StoredCount(a + b) == StoredCount(a) + StoredCount(b)
    decreases |b|
  {
    if |b| == 0 {
      assert a + b == a;
    } else {
      var ab := a + b;
      var last := b[|b| - 1];
      assert ab[..|ab| - 1] == a + b[..|b| - 1];
      assert ab[|ab| - 1] == last;
      assert StoredCount(ab) == StoredCount(a + b[..|b| - 1]) + (if last.Uploaded? && last.stored.Ok? then 1 else 0);
      StoredCountAppend(a, b[..|b| - 1]);
    }
  }

  /** A chunk's calls store it once when it succeeds and not at all otherwise. */
  lemma {:induction false} ChunkStoresOnce(chunks: seq<string>, i: nat, embed: Embedder, upload: Uploader)
    requires i < |chunks|
    ensures StoredCount(ChunkCalls(chunks, i, embed, upload)) == if ChunkSucceeds(chunks, i, embed, upload) then 1 else 0
  {
    var e := embed(i, chunks[i]);
    var first := Embedded(i, chunks[i], e);
    assert StoredCount([first]) == 0 by {
      assert [first][..0] == [];
    }
    if e.Ok? {
      var cs := [first, Uploaded(i, chunks[i], e.value, upload(i, chunks[i], e.value))];
      assert cs[..1] == [first];
      assert StoredCount(cs) == StoredCount([first]) + (if cs[1].stored.Ok? then 1 else 0);
    }
  }

  /** The first `k` chunks, all successful, store exactly `k` chunks. */
  lemma {:induction false} SuccessfulChunksStore(chunks: seq<string>, k: nat, embed: Embedder, upload: Uploader)
    requires k <= |chunks|
    requires forall j :: 0 <= j < k ==> ChunkSucceeds(chunks, j, embed, upload)
    ensures StoredCount(CallsFor(chunks, k, embed, upload)) == k
  {
    if k > 0 {
      SuccessfulChunksStore(chunks, k - 1, embed, upload);
      StoredCountAppend(CallsFor(chunks, k - 1, embed, upload), ChunkCalls(chunks, k - 1, embed, upload));
      ChunkStoresOnce(chunks, k - 1, embed, upload);
    }
  }

  /** The number of stored chunks the trace shows agrees with the outcome: all
      of them on success, and exactly the `i` chunks before the failing chunk
      `i` on failure. */
  lemma {:induction false} StoredCountMatchesOutcome(chunks: seq<string>, embed: Embedder, upload: Uploader,
                                                     outcome: Result<nat, IngestError>, calls: seq<Call>)
    requires UploadRun(chunks, embed, upload, outcome, calls)
    ensures outcome.Ok? ==> StoredCount(calls) == outcome.value == |chunks|
    ensures outcome.Err? ==> StoredCount(calls) == outcome.error.index
  {
    if outcome.Ok? {
      SuccessfulChunksStore(chunks, |chunks|, embed, upload);
    } else {
      var i := outcome.error.index;
      SuccessfulChunksStore(chunks, i, embed, upload);
      StoredCountAppend(CallsFor(chunks, i, embed, upload), ChunkCalls(chunks, i, embed, upload));
      ChunkStoresOnce(chunks, i, embed, upload);
    }
  }

  /** Call `p` of a trace concerns one of the first `k` chunks and carries its
      text, and if it is an upload, the call just before it embedded the same
      chunk and returned the vector the upload stores. */
  predicate CallCarriesChunk(chunks: seq<string>, k: nat, calls: seq<Call>, p: nat)
    requires p < |calls|
  {
    && calls[p].index < k <= |chunks|
    && calls[p].text == chunks[calls[p].index]
    && (calls[p].Uploaded? ==> p > 0 && calls[p - 1] == Embedded(calls[p].index, calls[p].text, Ok(calls[p].vector)))
  }

  /** Every call of the first `k` chunks concerns one of them and carries its
      text, and every upload stores the vector its chunk's embedding returned. */
  lemma {:induction false} CallsCarryTheirChunk(chunks: seq<string>, k: nat, embed: Embedder, upload: Uploader)
    requires k <= |chunks|
    ensures forall p :: 0 <= p < |CallsFor(chunks, k, embed, upload)| ==>
      CallCarriesChunk(chunks, k, CallsFor(chunks, k, embed, upload), p)
  {
    if k > 0 {
      var prev := CallsFor(chunks, k - 1, embed, upload);
      var cs := ChunkCalls(chunks, k - 1, embed, upload);
      var calls := prev + cs;
      assert CallsFor(chunks, k, embed, upload) == calls;
      var e := embed(k - 1, chunks[k - 1]);
      assert cs[0] == Embedded(k - 1, chunks[k - 1], e);
      assert |cs| == 2 ==> e.Ok? && cs[1] == Uploaded(k - 1, chunks[k - 1], e.value, upload(k - 1, chunks[k - 1], e.value));
      CallsCarryTheirChunk(chunks, k - 1, embed, upload);
      forall p | 0 <= p < |calls|
        ensures CallCarriesChunk(chunks, k, calls, p)
      {
        if p < |prev| {
          assert CallCarriesChunk(chunks, k - 1, prev, p);
          assert calls[p] == prev[p];
          if p > 0 {
            assert calls[p - 1] == prev[p - 1];
          }
        } else {
          assert calls[p] == cs[p - |prev|];
          if p > |prev| {
            assert calls[p - 1] == cs[0];
          }
        }
      }
    }
  }
}

=== FILE: query.dfy ===
/** The control logic of the query endpoint: refuse an empty query, embed it,
    search the store with a result limit that defaults to five, and project
    each hit to its identifier, score and text. */
module Query {
  import opened Results
  import opened Gateways
  import opened Windowing

  /** The fields of a query request, as bound from its JSON body. */
  datatype QueryRequest = QueryRequest(query: string, topK: GoInt)

  /** Why a query was not answered. */
  datatype QueryError = EmptyQuery | EmbeddingFailed(cause: string) | SearchFailed(cause: string)

  /** A call to an external service made while answering, with its result. */
  datatype QueryCall =
    | EmbeddedQuery(text: string, embedding: Result<Embedding, string>)
    | Searched(vector: Embedding, limit: nat, hits: Result<seq<ScoredPoint>, string>)

  /** One match of the response. */
  datatype Match = Match(id: string, score: real, text: string)

  /** An answered or refused query, with the calls made to produce it. */
  datatype QueryRun = QueryRun(outcome: Result<seq<Match>, QueryError>, calls: seq<QueryCall>)

  /** The number of results asked of the store: a positive `topK` as given,
      anything else five. */
  function SearchLimit(topK: int): (limit: nat)
    ensures limit >= 1
    ensures topK > 0 ==> limit == topK
    ensures topK <= 0 ==> limit == 5
  {
    if topK <= 0 then 5 else topK
  }

  /** The identifier string of a point: its UUID, or empty for a numeric id. */
  function IdText(id: PointId): (s: string)
    ensures id.Uuid? ==> s == id.uuid
    ensures id.Num? ==> s == ""
  {
    match id
    case Uuid(u) => u
    case Num(_) => ""
  }

  /** The text of a payload: its `text` entry when that holds a string, and
      empty when the entry is missing or holds another kind of value. */
  function PayloadText(payload: map<string, PayloadValue>): (t: string)
    ensures "text" !in payload ==> t == ""
    ensures "text" in payload && payload["text"].StringValue? ==> t == payload["text"].s
    ensures "text" in payload && payload["text"].OtherValue? ==> t == ""
  {
    if "text" in payload then
      match payload["text"]
      case StringValue(s) => s
      case OtherValue => ""
    else ""
  }

  function ProjectPoint(p: ScoredPoint): Match {
    Match(IdText(p.id), p.score, PayloadText(p.payload))
  }

  /** The matches of a search, one per hit and in the store's order: each
      keeps its hit's identifier and score and takes its text from the payload. */
  function Project(points: seq<ScoredPoint>): (ms: seq<Match>)
    ensures |ms| == |points|
    ensures forall i :: 0 <= i < |ms| ==>
      && ms[i].id == IdText(points[i].id)
      && ms[i].score == points[i].score
      && ms[i].text == PayloadText(points[i].payload)
  {
    if |points| == 0 then [] else [ProjectPoint(points[0])] + Project(points[1..])
  }

  /** The query endpoint after binding. An empty query is refused with no call
      made. Otherwise the query is embedded; if that fails nothing is searched.
      Then the store is searched with the embedding and the search limit, and
      its hits are projected in order. */
  function RunQuery(req: QueryRequest, embed: Embedder, search: Searcher): (run: QueryRun)
    ensures req.query == "" <==> run.outcome == Err(EmptyQuery)
    ensures req.query == "" ==> run.calls == []
    ensures req.query != "" ==>
      && 1 <= |run.calls| <= 2
      && run.calls[0] == EmbeddedQuery(req.query, embed(0, req.query))
    ensures run.outcome.Err? && run.outcome.error.EmbeddingFailed? <==>
      req.query != "" && embed(0, req.query).Err?
    ensures req.query != "" && embed(0, req.query).Err? ==>
      run.outcome == Err(EmbeddingFailed(embed(0, req.query).error))
    ensures |run.calls| == 2 ==>
      && run.calls[0].EmbeddedQuery? && run.calls[0].embedding.Ok?
      && run.calls[1].Searched?
      && run.calls[1].vector == run.calls[0].embedding.value
      && run.calls[1].limit == SearchLimit(req.topK)
      && run.calls[1].hits == search(run.calls[1].vector, run.calls[1].limit)
    ensures run.outcome.Err? && run.outcome.error.SearchFailed? ==>
      |run.calls| == 2 && run.calls[1].Searched? && run.calls[1].hits.Err?
    ensures |run.calls| == 2 && run.calls[1].Searched? && run.calls[1].hits.Err? ==>
      run.outcome == Err(SearchFailed(run.calls[1].hits.error))
    ensures run.outcome.Ok? ==>
      && |run.calls| == 2
      && run.calls[1].Searched? && run.calls[1].hits.Ok?
      && run.outcome.value == Project(run.calls[1].hits.value)
  {
    if req.query == "" then QueryRun(Err(EmptyQuery), [])
    else
      var e := embed(0, req.query);
      var first := EmbeddedQuery(req.query, e);
      if e.Err? then QueryRun(Err(EmbeddingFailed(e.error)), [first])
      else
        var limit := SearchLimit(req.topK);
        var hits := search(e.value, limit);
        var calls := [first, Searched(e.value, limit, hits)];
        if hits.Err? then QueryRun(Err(SearchFailed(hits.error)), calls)
        else QueryRun(Ok(Project(hits.value)), calls)
  }

  /** The HTTP status of a query outcome. */
  function QueryStatus(outcome: Result<seq<Match>, QueryError>): (code: nat)
    ensures code == 200 <==> outcome.Ok?
    ensures code == 400 <==> outcome == Err(EmptyQuery)
    ensures code == 200 || code == 400 || code == 500
  {
    match outcome
    case Ok(_) => 200
    case Err(EmptyQuery) => 400
    case Err(_) => 500
  }
}

=== FILE: results.dfy ===
/** Failure-carrying values used to model Go's `(value, error)` returns. */
module Results {

  /** A value that may be absent. */
  datatype Option<+T> = None | Some(value: T)

  /** Either a value or the error that replaced it. */
  datatype Result<+T, +E> = Ok(value: T) | Err(error: E)
}

=== FILE: segmenter.dfy ===
/** The three chunking functions of the service (`chunkByWords`,
    `chunkBySentences`, `chunkByParagraphs`). Each splits the text into units;
    when there are no more units than the chunk size the original text is the
    only chunk, otherwise every window of units is rendered with the strategy's
    join rule. */
module Segmenter {
  import opened Text
  import opened Windowing

  datatype Strategy = Words | Sentences | Paragraphs

  /** How the units of one window are put back together: joined with `sep`,
      then followed by `terminator`. */
  datatype JoinRule = JoinRule(sep: string, terminator: string) {
    function Render(units: seq<string>): string {
      Join(units, sep) + terminator
    }
  }

  /** The character class `[.!?]` sentences are split on. */
  const SentenceDelimiters: set<char> := {'.', '!', '?'}

  /** The blank line paragraphs are split on. */
  const ParagraphBreak: string := "\n\n"

  function RuleOf(st: Strategy): JoinRule {
    match st
    case Words => JoinRule(" ", "")
    case Sentences => JoinRule(". ", ".")
    case Paragraphs => JoinRule(ParagraphBreak, "")
  }

  predicate IsSentence(u: string) {
    |u| > 0 && IsTrimmed(u) && FreeOf(u, SentenceDelimiters)
  }

  predicate IsParagraph(u: string) {
    |u| > 0 && IsTrimmed(u) && FreeOfSep(u, ParagraphBreak)
  }

  /** What a unit of each strategy looks like. */
  predicate IsUnit(st: Strategy, u: string) {
    match st
    case Words => IsWord(u)
    case Sentences => IsSentence(u)
    case Paragraphs => IsParagraph(u)
  }

  // ---------------------------------------------------------------------------
  // Units

  /** How many of the first `i` pieces trim to something. */
  function KeptBefore(ps: seq<string>, i: nat): (c: nat)
    requires i <= |ps|
    ensures c <= i
  {
    if i == 0 then 0
    else (if TrimSpace(ps[0]) == "" then 0 else 1) + KeptBefore(ps[1..], i - 1)
  }

  /** Trims every piece and drops those that trim to nothing, keeping order:
      piece `i`, when it trims to something, is kept trimmed at the position
      counting the kept pieces before it, and nothing else is kept. */
  function TrimAndDrop(ps: seq<string>): (us: seq<string>)
    ensures |us| == KeptBefore(ps, |ps|) <= |ps|
    ensures forall i {:trigger KeptBefore(ps, i)} :: 0 <= i < |ps| && TrimSpace(ps[i]) != "" ==>
      KeptBefore(ps, i) < |us| && us[KeptBefore(ps, i)] == TrimSpace(ps[i])
    ensures forall i :: 0 <= i < |us| ==> |us[i]| > 0 && IsTrimmed(us[i])
  {
    if |ps| == 0 then []
    else
      var t := TrimSpace(ps[0]);
      var rest := TrimAndDrop(ps[1..]);
      KeptPositions(ps, rest);
      (if t == "" then [] else [t]) + rest
  }

  /** Putting the first piece, trimmed or dropped, in front of the kept rest
      keeps every later piece at its counted position. */
  lemma {:induction false} KeptPositions(ps: seq<string>, rest: seq<string>)
    requires |ps| > 0
    requires |rest| == KeptBefore(ps[1..], |ps| - 1)
    requires forall j {:trigger KeptBefore(ps[1..], j)} :: 0 <= j < |ps| - 1 && TrimSpace(ps[1..][j]) != "" ==>
      KeptBefore(ps[1..], j) < |rest| && rest[KeptBefore(ps[1..], j)] == TrimSpace(ps[1..][j])
    ensures var us := (if TrimSpace(ps[0]) == "" then [] else [TrimSpace(ps[0])]) + rest;
      && |us| == KeptBefore(ps, |ps|)
      && forall i {:trigger KeptBefore(ps, i)} :: 0 <= i < |ps| && TrimSpace(ps[i]) != "" ==>
           KeptBefore(ps, i) < |us| && us[KeptBefore(ps, i)] == TrimSpace(ps[i])
  {
    var head := if TrimSpace(ps[0]) == "" then [] else [TrimSpace(ps[0])];
    var us := head + rest;
    forall i | 0 <= i < |ps| && TrimSpace(ps[i]) != ""
      ensures KeptBefore(ps, i) < |us| && us[KeptBefore(ps, i)] == TrimSpace(ps[i])
    {
      if i > 0 {
        var k := KeptBefore(ps[1..], i - 1);
        assert ps[1..][i - 1] == ps[i];
        assert KeptBefore(ps, i) == |head| + k;
        assert us[|head| + k] == rest[k];
      }
    }
  }

  lemma {:induction false} TrimAndDropCons(x: string, xs: seq<string>)
    ensures TrimAndDrop([x] + xs)
      == (if TrimSpace(x) == "" then [] else [TrimSpace(x)]) + TrimAndDrop(xs)
  {
    assert ([x] + xs)[1..] == xs;
  }

  /** Trimming keeps a piece free of delimiter characters. */
  lemma {:induction false} TrimAndDropFreeOf(ps: seq<string>, delims: set<char>)
    requires forall i :: 0 <= i < |ps| ==> FreeOf(ps[i], delims)
    ensures forall i :: 0 <= i < |TrimAndDrop(ps)| ==> FreeOf(TrimAndDrop(ps)[i], delims)
  {
    if |ps| > 0 {
      var t := TrimSpace(ps[0]);
      var a := LeadingSpaces(ps[0]);
      assert forall m :: 0 <= m < |t| ==> t[m] == ps[0][a + m];
      TrimAndDropFreeOf(ps[1..], delims);
    }
  }

  /** Trimming keeps a piece free of a separator string. */
  lemma {:induction false} TrimAndDropFreeOfSep(ps: seq<string>, sep: string)
    requires forall i :: 0 <= i < |ps| ==> FreeOfSep(ps[i], sep)
    ensures forall i :: 0 <= i < |TrimAndDrop(ps)| ==> FreeOfSep(TrimAndDrop(ps)[i], sep)
  {
    if |ps| > 0 {
      var t := TrimSpace(ps[0]);
      var a := LeadingSpaces(ps[0]);
      FreeOfSepInfix(ps[0], sep, a, a + |t|);
      TrimAndDropFreeOfSep(ps[1..], sep);
    }
  }

  /** Pieces that are already units pass through unchanged. */
  lemma {:induction false} TrimAndDropOfUnits(us: seq<string>)
    requires forall i :: 0 <= i < |us| ==> |us[i]| > 0 && IsTrimmed(us[i])
    ensures TrimAndDrop(us) == us
  {
    if |us| > 0 {
      TrimSpaceOfTrimmed(us[0]);
      TrimAndDropOfUnits(us[1..]);
    }
  }

  /** Sentence units: the pieces between `.`, `!` and `?`, trimmed, empty ones
      dropped. Each is a non-empty trimmed run without a delimiter. */
  function SentenceUnits(text: string): (us: seq<string>)
    ensures forall i :: 0 <= i < |us| ==> IsSentence(us[i])
  {
    var pieces := SplitAny(text, SentenceDelimiters);
    TrimAndDropFreeOf(pieces, SentenceDelimiters);
    TrimAndDrop(pieces)
  }

  /** Paragraph units: the pieces between blank lines, trimmed, empty ones
      dropped. Each is a non-empty trimmed text without a blank line. */
  function ParagraphUnits(text: string): (us: seq<string>)
    ensures forall i :: 0 <= i < |us| ==> IsParagraph(us[i])
  {
    var pieces := SplitOn(text, ParagraphBreak);
    TrimAndDropFreeOfSep(pieces, ParagraphBreak);
    TrimAndDrop(pieces)
  }

  /** The units a strategy splits `text` into: every unit is non-empty and
      trimmed, and holds no delimiter of its strategy (no white space in a word,
      no `.`, `!` or `?` in a sentence, no blank line in a paragraph). */
  function UnitsOf(st: Strategy, text: string): (us: seq<string>)
    ensures forall i :: 0 <= i < |us| ==> IsUnit(st, us[i])
  {
    match st
    case Words => Fields(text)
    case Sentences => SentenceUnits(text)
    case Paragraphs => ParagraphUnits(text)
  }


  // ---------------------------------------------------------------------------
  // Rendering a window and splitting it again

  /** A rendered sentence window is its first sentence, a `.`, and the rest. */
  lemma SentenceJoinShape(p: string, us: seq<string>)
    requires |us| > 1
    ensures p + Join(us, ". ") + "." == (p + us[0]) + ['.'] + (" " + Join(us[1..], ". ") + ".")
  {
  }

  /** A delimiter-free piece before a `.` becomes the first unit when it trims to something. */
  lemma {:induction false} SentenceSplitStep(first: string, tail: string, u: string)
    requires FreeOf(first, SentenceDelimiters)
    requires TrimSpace(first) == u && u != ""
    ensures TrimAndDrop(SplitAny(first + ['.'] + tail, SentenceDelimiters))
      == [u] + TrimAndDrop(SplitAny(tail, SentenceDelimiters))
  {
    SplitAnyStep(first, '.', tail, SentenceDelimiters);
    TrimAndDropCons(first, SplitAny(tail, SentenceDelimiters));
  }

  /** Nothing follows the closing `.` of a rendered window. */
  lemma EmptyTailHasNoSentence()
    ensures TrimAndDrop(SplitAny("", SentenceDelimiters)) == []
  {
  }

  /** An empty window renders as "." and holds no sentence. */
  lemma LoneStopHasNoSentence()
    ensures SentenceUnits(".") == []
  {
    assert "" + ['.'] + "" == ".";
    SplitAnyStep("", '.', "", SentenceDelimiters);
    TrimAndDropCons("", SplitAny("", SentenceDelimiters));
    EmptyTailHasNoSentence();
  }

  /** White space holds no sentence delimiter, so padding keeps a sentence free of them. */
  lemma {:induction false} PaddedSentenceIsFree(p: string, u: string)
    requires AllSpace(p) && IsSentence(u)
    ensures FreeOf(p + u, SentenceDelimiters)
  {
    forall i | 0 <= i < |p + u|
      ensures (p + u)[i] !in SentenceDelimiters
    {
      if i < |p| {
        assert IsSpace(p[i]);
      } else {
        assert (p + u)[i] == u[i - |p|];
      }
    }
  }

  /** A padded sentence and its `.` give back that one sentence. */
  lemma {:induction false} LastSentencePiece(p: string, u: string)
    requires AllSpace(p) && IsSentence(u)
    ensures TrimAndDrop(SplitAny(p + Join([u], ". ") + ".", SentenceDelimiters)) == [u]
  {
    var first := p + u;
    assert FreeOf(first, SentenceDelimiters) && TrimSpace(first) == u by {
      PaddedSentenceIsFree(p, u);
      TrimSpacePadded(p, u);
    }
    assert p + Join([u], ". ") + "." == first + ['.'] + "" by {
      assert Join([u], ". ") == u;
    }
    SentenceSplitStep(first, "", u);
    EmptyTailHasNoSentence();
  }

  /** A padded sentence, its `.`, and further sentences: the first sentence
      comes out ahead of those the rest gives. */
  lemma {:induction false} NextSentencePiece(p: string, us: seq<string>)
    requires AllSpace(p)
    requires |us| > 1 && IsSentence(us[0])
    requires TrimAndDrop(SplitAny(" " + Join(us[1..], ". ") + ".", SentenceDelimiters)) == us[1..]
    ensures TrimAndDrop(SplitAny(p + Join(us, ". ") + ".", SentenceDelimiters)) == us
  {
    var first := p + us[0];
    var tail := " " + Join(us[1..], ". ") + ".";
    assert FreeOf(first, SentenceDelimiters) && TrimSpace(first) == us[0] by {
      PaddedSentenceIsFree(p, us[0]);
      TrimSpacePadded(p, us[0]);
    }
    assert p + Join(us, ". ") + "." == first + ['.'] + tail by {
      SentenceJoinShape(p, us);
    }
    SentenceSplitStep(first, tail, us[0]);
    HeadThenTail(us);
  }

  /** White space, then sentences each followed by `.`: splitting gives the
      sentences back. */
  lemma {:induction false} SentencePieces(p: string, us: seq<string>)
    requires AllSpace(p)
    requires |us| > 0 && forall i :: 0 <= i < |us| ==> IsSentence(us[i])
    ensures TrimAndDrop(SplitAny(p + Join(us, ". ") + ".", SentenceDelimiters)) == us
    decreases |us|
  {
    if |us| == 1 {
      LastSentencePiece(p, us[0]);
      assert [us[0]] == us;
    } else {
      assert AllSpace(" ");
      SentencePieces(" ", us[1..]);
      NextSentencePiece(p, us);
    }
  }

  lemma {:induction false} SentencesRoundTrip(us: seq<string>)
    requires forall i :: 0 <= i < |us| ==> IsSentence(us[i])
    ensures SentenceUnits(Join(us, ". ") + ".") == us
  {
    if |us| == 0 {
      assert Join(us, ". ") + "." == ".";
      LoneStopHasNoSentence();
    } else {
      SentencePieces("", us);
      EmptyThen(Join(us, ". "));
    }
  }

  /** No blank line of `a + ParagraphBreak + b` starts inside the paragraph `a`:
      the paragraph holds none, and its last character is not a newline. */
  lemma {:induction false} BreakNotInsideParagraph(a: string, b: string, v: nat)
    requires IsParagraph(a)
    requires OccursAt(a + ParagraphBreak + b, ParagraphBreak, v)
    ensures v >= |a|
  {
    var s := a + ParagraphBreak + b;
    if v + 2 <= |a| {
      assert s[v..v + 2] == a[v..v + 2];
      assert OccursAt(a, ParagraphBreak, v);
    }
    assert s[|a| - 1] == a[|a| - 1];
    assert s[v] == '\n';
  }

  /** A paragraph followed by a blank line is split off as the first piece: a
      trimmed paragraph cannot end with the first newline of the break. */
  lemma {:induction false} ParagraphSplitStep(a: string, b: string)
    requires IsParagraph(a)
    ensures SplitOn(a + ParagraphBreak + b, ParagraphBreak) == [a] + SplitOn(b, ParagraphBreak)
  {
    var sep := ParagraphBreak;
    var s := a + sep + b;
    assert s[|a|..|a| + 2] == sep;
    assert OccursAt(s, sep, |a|);
    var r := IndexFrom(s, sep, 0);
    BreakNotInsideParagraph(a, b, r.value);
    assert s[..|a|] == a;
    assert s[|a| + 2..] == b;
  }

  lemma {:induction false} SplitOnFree(u: string, sep: string)
    requires |sep| > 0 && FreeOfSep(u, sep)
    ensures SplitOn(u, sep) == [u]
  {
  }

  lemma {:induction false} ParagraphPieces(us: seq<string>)
    requires |us| > 0 && forall i :: 0 <= i < |us| ==> IsParagraph(us[i])
    ensures SplitOn(Join(us, ParagraphBreak), ParagraphBreak) == us
    decreases |us|
  {
    if |us| == 1 {
      SplitOnFree(us[0], ParagraphBreak);
    } else {
      ParagraphSplitStep(us[0], Join(us[1..], ParagraphBreak));
      ParagraphPieces(us[1..]);
    }
  }

  lemma {:induction false} ParagraphsRoundTrip(us: seq<string>)
    requires forall i :: 0 <= i < |us| ==> IsParagraph(us[i])
    ensures ParagraphUnits(Join(us, ParagraphBreak)) == us
  {
    if |us| == 0 {
      SplitOnFree("", ParagraphBreak);
      TrimAndDropCons("", []);
      assert TrimSpace("") == "";
    } else {
      ParagraphPieces(us);
      TrimAndDropOfUnits(us);
    }
  }

  /** Rendering units with a strategy's join rule and splitting the result with
      the same strategy gives the units back. */
  lemma {:induction false} RenderThenSplit(st: Strategy, us: seq<string>)
    requires forall i :: 0 <= i < |us| ==> IsUnit(st, us[i])
    ensures UnitsOf(st, RuleOf(st).Render(us)) == us
  {
    match st
    case Words =>
      assert Join(us, " ") + "" == Join(us, " ");
      FieldsOfJoin(us);
    case Sentences =>
      SentencesRoundTrip(us);
    case Paragraphs =>
      assert Join(us, ParagraphBreak) + "" == Join(us, ParagraphBreak);
      ParagraphsRoundTrip(us);
  }

  // ---------------------------------------------------------------------------
  // Chunking

  /** Every window of `ws`, rendered from `units` with `rule`, in order. */
  function RenderWindows(units: seq<string>, ws: seq<Window>, rule: JoinRule): (cs: seq<string>)
    requires InRange(ws, |units|)
    ensures |cs| == |ws|
  {
    if |ws| == 0 then []
    else [rule.Render(units[ws[0].start..ws[0].end])] + RenderWindows(units, ws[1..], rule)
  }

  /** Chunk `k` is window `k` rendered. */
  lemma {:induction false} RenderWindowsAt(units: seq<string>, ws: seq<Window>, rule: JoinRule, k: nat)
    requires InRange(ws, |units|)
    requires k < |ws|
    ensures RenderWindows(units, ws, rule)[k] == rule.Render(units[ws[k].start..ws[k].end])
  {
    if k > 0 {
      RenderWindowsAt(units, ws[1..], rule, k - 1);
    }
  }

  lemma {:induction false} RenderWindowsCons(units: seq<string>, w: Window, ws: seq<Window>, rule: JoinRule)
    requires w.start <= w.end <= |units|
    requires InRange(ws, |units|)
    ensures RenderWindows(units, [w] + ws, rule)
      == [rule.Render(units[w.start..w.end])] + RenderWindows(units, ws, rule)
  {
    assert ([w] + ws)[1..] == ws;
  }

  /** The windowing shared by the three strategies, with the join rule as a parameter. */
  function ChunkUnits(text: string, units: seq<string>, size: int, overlap: int, rule: JoinRule): (chunks: seq<string>)
    requires size >= 0 || |units| == 0
    ensures |units| <= size ==> chunks == [text]
    ensures |units| > size ==> |chunks| == |Windows(|units|, size, overlap)|
    ensures |units| > size ==> (|chunks| == 0 <==> |units| == 0)
  {
    if |units| <= size then [text]
    else
      WindowsInRange(|units|, size, overlap);
      RenderWindows(units, Windows(|units|, size, overlap), rule)
  }

  /** The chunks the walk still has to emit from start index `i`, following
      the loop's own steps. */
  function RenderedFrom(units: seq<string>, i: nat, size: int, step: nat, rule: JoinRule): seq<string>
    requires step >= 1
    requires size >= 0 || i >= |units|
    decreases |units| - i
  {
    if i >= |units| then []
    else
      var end := Min(i + size, |units|);
      [rule.Render(units[i..end])] + (if end == |units| then [] else RenderedFrom(units, i + step, size, step, rule))
  }

  /** The loop emits the window at `i`, then continues at `i + step` unless
      that window reached the end. */
  lemma {:induction false} RenderedFromUnfold(units: seq<string>, i: nat, size: nat, step: nat, rule: JoinRule)
    requires step >= 1 && i < |units|
    ensures i + size >= |units| ==>
      RenderedFrom(units, i, size, step, rule) == [rule.Render(units[i..|units|])]
    ensures i + size < |units| ==>
      RenderedFrom(units, i, size, step, rule)
        == [rule.Render(units[i..i + size])] + RenderedFrom(units, i + step, size, step, rule)
  {
  }

  /** One step of the correspondence: if the loop from `i + step` emits the
      walk from there, the loop from `i` emits the walk from `i`. */
  lemma {:induction false} RenderedFromStep(units: seq<string>, i: nat, size: nat, step: nat, rule: JoinRule)
    requires step >= 1 && i + size < |units|
    requires InRange(WindowsFrom(i + step, |units|, size, step), |units|)
    requires RenderedFrom(units, i + step, size, step, rule)
      == RenderWindows(units, WindowsFrom(i + step, |units|, size, step), rule)
    ensures InRange(WindowsFrom(i, |units|, size, step), |units|)
    ensures RenderedFrom(units, i, size, step, rule) == RenderWindows(units, WindowsFrom(i, |units|, size, step), rule)
  {
    var n := |units|;
    WindowsFromInRange(i, n, size, step);
    WindowsFromUnfold(i, n, size, step);
    RenderedFromUnfold(units, i, size, step, rule);
    RenderWindowsCons(units, Window(i, i + size), WindowsFrom(i + step, n, size, step), rule);
  }

  /** The loop's output is the rendering of the windows the walk visits. */
  lemma {:induction false} RenderedFromWindows(units: seq<string>, i: nat, size: int, step: nat, rule: JoinRule)
    requires step >= 1
    requires size >= 0 || i >= |units|
    ensures InRange(WindowsFrom(i, |units|, size, step), |units|)
    ensures RenderedFrom(units, i, size, step, rule) == RenderWindows(units, WindowsFrom(i, |units|, size, step), rule)
    decreases |units| - i
  {
    var n := |units|;
    WindowsFromInRange(i, n, size, step);
    if i < n {
      if i + size < n {
        RenderedFromWindows(units, i + step, size, step, rule);
        RenderedFromStep(units, i, size, step, rule);
      } else {
        WindowsFromUnfold(i, n, size, step);
        RenderedFromUnfold(units, i, size, step, rule);
        RenderWindowsCons(units, Window(i, n), [], rule);
      }
    }
  }

  /** The loop invariant: what the loop emits from start index `i` on
      completes the chunks emitted so far to `all`. */
  predicate Remaining(units: seq<string>, i: nat, size: int, step: nat, rule: JoinRule,
                      chunks: seq<string>, all: seq<string>)
    requires step >= 1
  {
    && (size >= 0 || i >= |units|)
    && chunks + RenderedFrom(units, i, size, step, rule) == all
    && (i >= |units| ==> chunks == all)
  }

  /** The loop invariant survives one turn. */
  lemma {:induction false} RenderedFromAdvance(units: seq<string>, i: nat, end: nat, size: int, step: nat, rule: JoinRule,
                                               piece: string, chunks: seq<string>, all: seq<string>)
    requires step >= 1 && i < |units|
    requires Remaining(units, i, size, step, rule, chunks, all)
    requires end == Min(i + size, |units|)
    requires piece == rule.Render(units[i..end])
    ensures end == |units| ==> chunks + [piece] == all
    ensures end < |units| ==> Remaining(units, i + step, size, step, rule, chunks + [piece], all)
  {
  }

  /** The window walk as the service writes it: a start index advanced by the
      step, a window end clamped to the unit count, and a break once the end
      reaches it. */
  method WindowLoop(units: seq<string>, size: int, step: nat, rule: JoinRule) returns (chunks: seq<string>)
    requires step >= 1
    requires size >= 0 || |units| == 0
    ensures chunks == RenderedFrom(units, 0, size, step, rule)
  {
    var n := |units|;
    chunks := [];
    var i: nat := 0;
    ghost var all := RenderedFrom(units, 0, size, step, rule);
    while i < n
      // the chunks emitted so far, followed by those the walk still emits
      // from window start `i`, are all the chunks
      invariant Remaining(units, i, size, step, rule, chunks, all) == true
      decreases n - i
    {
      var end := i + size;
      if end > n {
        end := n;
      }
      var piece := rule.Render(units[i..end]);
      RenderedFromAdvance(units, i, end, size, step, rule, piece, chunks, all);
      chunks := chunks + [piece];
      if end == n {
        break;
      }
      i := i + step;
    }
  }

  /** The body shared by the three chunking functions: the whole text when it
      has no more units than the size, otherwise the window walk with the step
      clamped to 1. */
  method ChunkLoop(text: string, units: seq<string>, size: int, overlap: int, rule: JoinRule)
    returns (chunks: seq<string>)
    requires size >= 0 || |units| == 0
    ensures chunks == ChunkUnits(text, units, size, overlap, rule)
  {
    if |units| <= size {
      return [text];
    }
    var step := Wrap(size - overlap);
    if step <= 0 {
      step := 1;
    }
    chunks := WindowLoop(units, size, step, rule);
    assert chunks == ChunkUnits(text, units, size, overlap, rule) by {
      assert step == Step(size, overlap);
      WalkIsChunkUnits(text, units, size, overlap, rule);
    }
  }

  /** Above the size threshold, the chunks are what the walk with the clamped step emits. */
  lemma WalkIsChunkUnits(text: string, units: seq<string>, size: int, overlap: int, rule: JoinRule)
    requires size >= 0 || |units| == 0
    requires |units| > size
    ensures ChunkUnits(text, units, size, overlap, rule) == RenderedFrom(units, 0, size, Step(size, overlap), rule)
  {
    RenderedFromWindows(units, 0, size, Step(size, overlap), rule);
  }

  /** The chunks of `text` under a strategy. */
  function Segment(st: Strategy, text: string, size: int, overlap: int): (chunks: seq<string>)
    requires size >= 0 || |UnitsOf(st, text)| == 0
    ensures |UnitsOf(st, text)| <= size ==> chunks == [text]
    ensures |UnitsOf(st, text)| > size ==> |chunks| == |Windows(|UnitsOf(st, text)|, size, overlap)|
  {
    ChunkUnits(text, UnitsOf(st, text), size, overlap, RuleOf(st))
  }

  /** `chunkByWords`: windows of white-space separated words joined with single spaces. */
  function ChunkByWords(text: string, size: int, overlap: int): (chunks: seq<string>)
    requires size >= 0 || |Fields(text)| == 0
    ensures |Fields(text)| <= size ==> chunks == [text]
    ensures |Fields(text)| > size ==>
      && |chunks| == |Windows(|Fields(text)|, size, overlap)|
      && forall k :: 0 <= k < |chunks| ==> Fields(chunks[k]) == WindowUnits(Words, text, size, overlap, k)
  {
    var chunks := Segment(Words, text, size, overlap);
    if |Fields(text)| > size then ResegmentAll(Words, text, size, overlap); chunks else chunks
  }

  /** `chunkBySentences`: windows of sentences joined with ". " and closed with ".". */
  function ChunkBySentences(text: string, size: int, overlap: int): (chunks: seq<string>)
    requires size >= 0 || |SentenceUnits(text)| == 0
    ensures |SentenceUnits(text)| <= size ==> chunks == [text]
    ensures |SentenceUnits(text)| > size ==>
      && |chunks| == |Windows(|SentenceUnits(text)|, size, overlap)|
      && forall k :: 0 <= k < |chunks| ==> SentenceUnits(chunks[k]) == WindowUnits(Sentences, text, size, overlap, k)
  {
    var chunks := Segment(Sentences, text, size, overlap);
    if |SentenceUnits(text)| > size then ResegmentAll(Sentences, text, size, overlap); chunks else chunks
  }

  /** `chunkByParagraphs`: windows of paragraphs joined with blank lines. */
  function ChunkByParagraphs(text: string, size: int, overlap: int): (chunks: seq<string>)
    requires size >= 0 || |ParagraphUnits(text)| == 0
    ensures |ParagraphUnits(text)| <= size ==> chunks == [text]
    ensures |ParagraphUnits(text)| > size ==>
      && |chunks| == |Windows(|ParagraphUnits(text)|, size, overlap)|
      && forall k :: 0 <= k < |chunks| ==> ParagraphUnits(chunks[k]) == WindowUnits(Paragraphs, text, size, overlap, k)
  {
    var chunks := Segment(Paragraphs, text, size, overlap);
    if |ParagraphUnits(text)| > size then ResegmentAll(Paragraphs, text, size, overlap); chunks else chunks
  }

  // ---------------------------------------------------------------------------
  // Properties of the chunks

  /** The units window `k` selects, or nothing when there is no such window. */
  function WindowUnits(st: Strategy, text: string, size: int, overlap: int, k: nat): seq<string>
    requires size >= 0 || |UnitsOf(st, text)| == 0
  {
    var units := UnitsOf(st, text);
    var ws := Windows(|units|, size, overlap);
    WindowsInRange(|units|, size, overlap);
    if k < |ws| then units[ws[k].start..ws[k].end] else []
  }

  /** Chunk `k` of a text with more units than the size is the units of window
      `k` in the strategy's join format: words joined with a space, sentences
      joined with ". " and closed by ".", paragraphs joined with a blank line. */
  lemma {:induction false} ChunkIsJoinedWindow(st: Strategy, text: string, size: int, overlap: int, k: nat)
    requires size >= 0 || |UnitsOf(st, text)| == 0
    requires |UnitsOf(st, text)| > size
    requires k < |Segment(st, text, size, overlap)|
    ensures var chunk := Segment(st, text, size, overlap)[k];
      var part := WindowUnits(st, text, size, overlap, k);
      match st
      case Words => chunk == Join(part, " ")
      case Sentences => chunk == Join(part, ". ") + "."
      case Paragraphs => chunk == Join(part, "\n\n")
  {
    var units := UnitsOf(st, text);
    var ws := Windows(|units|, size, overlap);
    WindowsInRange(|units|, size, overlap);
    RenderWindowsAt(units, ws, RuleOf(st), k);
    var part := units[ws[k].start..ws[k].end];
    assert Join(part, " ") + "" == Join(part, " ");
    assert Join(part, ParagraphBreak) + "" == Join(part, ParagraphBreak);
  }

  /** Splitting chunk `k` again with the same strategy yields exactly the units
      of window `k`: chunks are their windows' units in the strategy's join format. */
  lemma {:induction false} ChunkResegments(st: Strategy, text: string, size: int, overlap: int, k: nat)
    requires size >= 0 || |UnitsOf(st, text)| == 0
    requires |UnitsOf(st, text)| > size
    requires k < |Segment(st, text, size, overlap)|
    ensures UnitsOf(st, Segment(st, text, size, overlap)[k]) == WindowUnits(st, text, size, overlap, k)
  {
    var units := UnitsOf(st, text);
    var ws := Windows(|units|, size, overlap);
    WindowsInRange(|units|, size, overlap);
    assert Segment(st, text, size, overlap) == RenderWindows(units, ws, RuleOf(st));
    RenderedWindowResegments(st, units, ws, k);
  }

  /** Window `k`, rendered and split again, gives back the units it covers. */
  lemma {:induction false} RenderedWindowResegments(st: Strategy, units: seq<string>, ws: seq<Window>, k: nat)
    requires forall i :: 0 <= i < |units| ==> IsUnit(st, units[i])
    requires InRange(ws, |units|)
    requires k < |ws|
    ensures UnitsOf(st, RenderWindows(units, ws, RuleOf(st))[k]) == units[ws[k].start..ws[k].end]
  {
    var part := units[ws[k].start..ws[k].end];
    RenderWindowsAt(units, ws, RuleOf(st), k);
    assert forall i :: 0 <= i < |part| ==> IsUnit(st, part[i]) by {
      UnitSlice(st, units, ws[k].start, ws[k].end);
    }
    RenderThenSplit(st, part);
  }

  lemma UnitSlice(st: Strategy, units: seq<string>, a: nat, b: nat)
    requires a <= b <= |units|
    requires forall i :: 0 <= i < |units| ==> IsUnit(st, units[i])
    ensures forall i :: 0 <= i < b - a ==> IsUnit(st, units[a..b][i])
  {
    forall i | 0 <= i < b - a
      ensures IsUnit(st, units[a..b][i])
    {
      assert units[a..b][i] == units[a + i];
    }
  }

  lemma {:induction false} ResegmentAll(st: Strategy, text: string, size: int, overlap: int)
    requires size >= 0 || |UnitsOf(st, text)| == 0
    requires |UnitsOf(st, text)| > size
    ensures var chunks := Segment(st, text, size, overlap);
      forall k :: 0 <= k < |chunks| ==> UnitsOf(st, chunks[k]) == WindowUnits(st, text, size, overlap, k)
  {
    var chunks := Segment(st, text, size, overlap);
    forall k | 0 <= k < |chunks|
      ensures UnitsOf(st, chunks[k]) == WindowUnits(st, text, size, overlap, k)
    {
      ChunkResegments(st, text, size, overlap, k);
    }
  }

  /** With a positive chunk size every chunk of a split text holds between 1
      and `size` units. */
  lemma {:induction false} ChunkHoldsAtMostSize(st: Strategy, text: string, size: int, overlap: int, k: nat)
    requires size > 0
    requires |UnitsOf(st, text)| > size
    requires k < |Segment(st, text, size, overlap)|
    ensures 1 <= |UnitsOf(st, Segment(st, text, size, overlap)[k])| <= size
  {
    var n := |UnitsOf(st, text)|;
    ChunkPerWindow(st, text, size, overlap);
    WindowShape(n, size, overlap, k);
    WindowUnitsLength(st, text, size, overlap, k);
    ChunkResegments(st, text, size, overlap, k);
  }

  lemma WindowUnitsLength(st: Strategy, text: string, size: int, overlap: int, k: nat)
    requires size >= 0 || |UnitsOf(st, text)| == 0
    requires k < |Windows(|UnitsOf(st, text)|, size, overlap)|
    ensures var w := Windows(|UnitsOf(st, text)|, size, overlap)[k];
      w.start <= w.end && |WindowUnits(st, text, size, overlap, k)| == w.end - w.start
  {
    WindowsInRange(|UnitsOf(st, text)|, size, overlap);
  }

  /** A text with more units than the size has one chunk per window. */
  lemma ChunkPerWindow(st: Strategy, text: string, size: int, overlap: int)
    requires size >= 0 || |UnitsOf(st, text)| == 0
    requires |UnitsOf(st, text)| > size
    ensures |Segment(st, text, size, overlap)| == |Windows(|UnitsOf(st, text)|, size, overlap)|
  {
  }

  /** The last `shared` units of `a` are the first `shared` units of `b`. */
  predicate Overlaps(a: seq<string>, b: seq<string>, shared: int) {
    0 <= shared <= |a| && shared <= |b| && a[|a| - shared..] == b[..shared]
  }

  /** `a` is nonempty and its last unit is `u`. */
  predicate EndsWith(a: seq<string>, u: string) {
    |a| > 0 && a[|a| - 1] == u
  }

  /** Window `k` ends with the `shared` units window `k + 1` starts with. */
  lemma {:induction false} SlicesOverlap(units: seq<string>, s1: nat, e1: nat, s2: nat, e2: nat)
    requires s1 <= s2 <= e1 <= e2 <= |units|
    ensures Overlaps(units[s1..e1], units[s2..e2], e1 - s2)
  {
    var a := units[s1..e1];
    var b := units[s2..e2];
    assert a[|a| - (e1 - s2)..] == units[s2..e1];
    assert b[..e1 - s2] == units[s2..e1];
  }

  lemma {:induction false} ConsecutiveWindowUnitsShare(st: Strategy, text: string, size: GoInt, overlap: GoInt, k: nat)
    requires size > 0 && overlap >= 0
    requires k + 1 < |Windows(|UnitsOf(st, text)|, size, overlap)|
    ensures Overlaps(WindowUnits(st, text, size, overlap, k), WindowUnits(st, text, size, overlap, k + 1),
                     size - Step(size, overlap))
  {
    var units := UnitsOf(st, text);
    var ws := Windows(|units|, size, overlap);
    ConsecutiveWindowsOverlap(|units|, size, overlap, k);
    WindowsInRange(|units|, size, overlap);
    SlicesOverlap(units, ws[k].start, ws[k].end, ws[k + 1].start, ws[k + 1].end);
  }

  /** Consecutive chunks overlap: the last `size - step` units of chunk `k` are
      the first `size - step` units of chunk `k + 1`. */
  lemma {:induction false} ConsecutiveChunksShareUnits(st: Strategy, text: string, size: GoInt, overlap: GoInt, k: nat)
    requires size > 0 && overlap >= 0
    requires |UnitsOf(st, text)| > size
    requires k + 1 < |Segment(st, text, size, overlap)|
    ensures var chunks := Segment(st, text, size, overlap);
      Overlaps(UnitsOf(st, chunks[k]), UnitsOf(st, chunks[k + 1]), size - Step(size, overlap))
  {
    ChunkPerWindow(st, text, size, overlap);
    ChunkResegments(st, text, size, overlap, k);
    ChunkResegments(st, text, size, overlap, k + 1);
    ConsecutiveWindowUnitsShare(st, text, size, overlap, k);
  }

  /** With a non-negative overlap the last window's units end with the last unit. */
  lemma {:induction false} LastWindowUnitsReachEnd(st: Strategy, text: string, size: GoInt, overlap: GoInt)
    requires size > 0 && overlap >= 0
    requires |UnitsOf(st, text)| > size
    ensures var units := UnitsOf(st, text);
      var m := |Windows(|units|, size, overlap)|;
      m > 0 && EndsWith(WindowUnits(st, text, size, overlap, m - 1), units[|units| - 1])
  {
    var units := UnitsOf(st, text);
    var n := |units|;
    var ws := Windows(n, size, overlap);
    LastWindowEndsAtCount(n, size, overlap);
    WindowShape(n, size, overlap, |ws| - 1);
    SliceToEndEndsWithLast(units, ws[|ws| - 1].start);
  }

  lemma SliceToEndEndsWithLast(units: seq<string>, start: nat)
    requires start < |units|
    ensures EndsWith(units[start..|units|], units[|units| - 1])
  {
  }

  /** With a non-negative overlap the last chunk ends with the last unit of the text. */
  lemma {:induction false} LastChunkReachesEnd(st: Strategy, text: string, size: GoInt, overlap: GoInt)
    requires size > 0 && overlap >= 0
    requires |UnitsOf(st, text)| > size
    ensures var chunks := Segment(st, text, size, overlap);
      var units := UnitsOf(st, text);
      |chunks| > 0 && EndsWith(UnitsOf(st, chunks[|chunks| - 1]), units[|units| - 1])
  {
    var units := UnitsOf(st, text);
    var chunks := Segment(st, text, size, overlap);
    var m := |Windows(|units|, size, overlap)|;
    ChunkPerWindow(st, text, size, overlap);
    LastWindowUnitsReachEnd(st, text, size, overlap);
    assert |chunks| == m > 0;
    ChunkResegments(st, text, size, overlap, m - 1);
    assert UnitsOf(st, chunks[m - 1]) == WindowUnits(st, text, size, overlap, m - 1);
  }

  /** A chunk size of 0 is not refused: a text with units is cut into empty
      windows, so every chunk renders no unit at all ("" for words and
      paragraphs, "." for sentences). */
  lemma {:induction false} ZeroSizeChunksAreEmpty(st: Strategy, text: string, overlap: int, k: nat)
    requires |UnitsOf(st, text)| > 0
    requires k < |Segment(st, text, 0, overlap)|
    ensures WindowUnits(st, text, 0, overlap, k) == []
    ensures Segment(st, text, 0, overlap)[k] == RuleOf(st).Render([])
  {
    var units := UnitsOf(st, text);
    var ws := Windows(|units|, 0, overlap);
    WindowsInRange(|units|, 0, overlap);
    WindowAt(0, |units|, 0, Step(0, overlap), k);
    RenderWindowsAt(units, ws, RuleOf(st), k);
    assert units[ws[k].start..ws[k].end] == [];
  }

  /** An overlap of at least the chunk size clamps the step to one unit: a text
      of n > size units yields exactly n - size + 1 chunks. */
  lemma {:induction false} ClampedChunkCount(st: Strategy, text: string, size: GoInt, overlap: GoInt)
    requires size > 0 && Wrap(size - overlap) <= 0
    requires |UnitsOf(st, text)| > size
    ensures |Segment(st, text, size, overlap)| == |UnitsOf(st, text)| - size + 1
  {
    ClampedWindowCount(|UnitsOf(st, text)|, size, overlap);
  }
}

=== FILE: text.dfy ===
/** The string primitives of Go's standard library that the segmenter is built on:
    `unicode.IsSpace`, `strings.TrimSpace`, `strings.Fields`, `strings.Split`,
    `strings.Join`, and `regexp.Split` with a one-character class such as `[.!?]`.
    Strings are sequences of Unicode scalar values. */
module Text {
  import opened Results

  /** The characters Go's `unicode.IsSpace` accepts: the Latin-1 spaces plus
      the Unicode White_Space property. */
  const Spaces: set<char> := {
    ' ', '\t', '\n', '\r', '\U{0B}', '\U{0C}', '\U{85}', '\U{A0}', '\U{1680}',
    '\U{2000}', '\U{2001}', '\U{2002}', '\U{2003}', '\U{2004}', '\U{2005}',
    '\U{2006}', '\U{2007}', '\U{2008}', '\U{2009}', '\U{200A}',
    '\U{2028}', '\U{2029}', '\U{202F}', '\U{205F}', '\U{3000}'
  }

  /** Go's `unicode.IsSpace`. */
  predicate IsSpace(c: char) {
    c in Spaces
  }

  /** Neither starts nor ends with white space. */
  predicate IsTrimmed(s: string) {
    |s| == 0 || (!IsSpace(s[0]) && !IsSpace(s[|s| - 1]))
  }

  predicate AllSpace(s: string) {
    forall i :: 0 <= i < |s| ==> IsSpace(s[i])
  }

  /** A non-empty run of non-space characters, as `strings.Fields` produces. */
  predicate IsWord(s: string) {
    |s| > 0 && forall i :: 0 <= i < |s| ==> !IsSpace(s[i])
  }

  /** Number of white-space characters at the front of `s`. */
  function LeadingSpaces(s: string): (k: nat)
    ensures k <= |s|
    ensures forall i :: 0 <= i < k ==> IsSpace(s[i])
    ensures k < |s| ==> !IsSpace(s[k])
  {
    if |s| == 0 || !IsSpace(s[0]) then 0 else 1 + LeadingSpaces(s[1..])
  }

  /** Number of white-space characters at the end of `s`. */
  function TrailingSpaces(s: string): (k: nat)
    ensures k <= |s|
    ensures forall i :: |s| - k <= i < |s| ==> IsSpace(s[i])
    ensures k < |s| ==> !IsSpace(s[|s| - 1 - k])
  {
    if |s| == 0 || !IsSpace(s[|s| - 1]) then 0 else 1 + TrailingSpaces(s[..|s| - 1])
  }

  /** `strings.TrimSpace`: the infix of `s` left after removing the white space at both ends. */
  function TrimSpace(s: string): (r: string)
    ensures IsTrimmed(r)
    ensures LeadingSpaces(s) + |r| <= |s|
    ensures r == s[LeadingSpaces(s)..LeadingSpaces(s) + |r|]
    ensures forall i :: LeadingSpaces(s) + |r| <= i < |s| ==> IsSpace(s[i])
  {
    var t := s[LeadingSpaces(s)..];
    t[..|t| - TrailingSpaces(t)]
  }

  /** White space in front of a trimmed, non-empty string is exactly what TrimSpace removes. */
  lemma {:induction false} TrimSpacePadded(p: string, u: string)
    requires AllSpace(p)
    requires |u| > 0 && IsTrimmed(u)
    ensures TrimSpace(p + u) == u
  {
    var s := p + u;
    assert s[|p|] == u[0];
    assert LeadingSpaces(s) == |p|;
    assert s[|s| - 1] == u[|u| - 1];
  }

  /** A string that is already trimmed is left alone. */
  lemma {:induction false} TrimSpaceOfTrimmed(u: string)
    requires IsTrimmed(u)
    ensures TrimSpace(u) == u
  {
    if |u| > 0 {
      TrimSpacePadded("", u);
      assert "" + u == u;
    }
  }

  /** Length of the longest prefix of `s` that holds no white space. */
  function WordLength(s: string): (k: nat)
    ensures k <= |s|
    ensures forall i :: 0 <= i < k ==> !IsSpace(s[i])
    ensures k < |s| ==> IsSpace(s[k])
  {
    if |s| == 0 || IsSpace(s[0]) then 0 else 1 + WordLength(s[1..])
  }

  /** `strings.Fields`: the maximal runs of non-space characters of `s`, in order. */
  function Fields(s: string): (ws: seq<string>)
    ensures forall i :: 0 <= i < |ws| ==> IsWord(ws[i])
    decreases |s|
  {
    var t := s[LeadingSpaces(s)..];
    if |t| == 0 then []
    else
      var k := WordLength(t);
      [t[..k]] + Fields(t[k..])
  }

  /** The characters of `s` that are not white space, in order. */
  function NonSpace(s: string): string {
    if |s| == 0 then "" else (if IsSpace(s[0]) then "" else [s[0]]) + NonSpace(s[1..])
  }

  /** Concatenation of a sequence of strings. */
  function Concat(ws: seq<string>): string {
    if |ws| == 0 then "" else ws[0] + Concat(ws[1..])
  }

  lemma {:induction false} NonSpaceAppend(a: string, b: string)
    ensures NonSpace(a + b) == NonSpace(a) + NonSpace(b)
    decreases |a|
  {
    if |a| == 0 {
      assert a + b == b;
    } else {
      assert (a + b)[1..] == a[1..] + b;
      NonSpaceAppend(a[1..], b);
    }
  }

  lemma {:induction false} NonSpaceOfSpaces(s: string)
    requires AllSpace(s)
    ensures NonSpace(s) == ""
    decreases |s|
  {
    if |s| > 0 {
      NonSpaceOfSpaces(s[1..]);
    }
  }

  lemma {:induction false} NonSpaceOfWord(s: string)
    requires forall i :: 0 <= i < |s| ==> !IsSpace(s[i])
    ensures NonSpace(s) == s
    decreases |s|
  {
    if |s| > 0 {
      NonSpaceOfWord(s[1..]);
      assert s == [s[0]] + s[1..];
    }
  }

  /** Dropping the leading white space keeps the non-space characters. */
  lemma {:induction false} NonSpaceSkipsLeading(s: string)
    ensures NonSpace(s) == NonSpace(s[LeadingSpaces(s)..])
  {
    var a := LeadingSpaces(s);
    assert s == s[..a] + s[a..];
    NonSpaceAppend(s[..a], s[a..]);
    NonSpaceOfSpaces(s[..a]);
  }

  /** The first word of `t` keeps all its characters. */
  lemma {:induction false} NonSpaceOfWordThen(t: string)
    ensures NonSpace(t) == t[..WordLength(t)] + NonSpace(t[WordLength(t)..])
  {
    var k := WordLength(t);
    assert t == t[..k] + t[k..];
    NonSpaceAppend(t[..k], t[k..]);
    NonSpaceOfWord(t[..k]);
  }

  /** Fields loses nothing but white space: its words concatenate to the
      non-space characters of the input. */
  lemma {:induction false} FieldsKeepsAllLetters(s: string)
    ensures Concat(Fields(s)) == NonSpace(s)
    decreases |s|
  {
    var t := s[LeadingSpaces(s)..];
    NonSpaceSkipsLeading(s);
    if |t| > 0 {
      var k := WordLength(t);
      var more := Fields(t[k..]);
      assert Fields(s) == [t[..k]] + more;
      NonSpaceOfWordThen(t);
      FieldsKeepsAllLetters(t[k..]);
      assert ([t[..k]] + more)[1..] == more;
    }
  }

  /** A non-empty sequence is its head followed by its tail. */
  lemma HeadThenTail<T>(xs: seq<T>)
    requires |xs| > 0
    ensures [xs[0]] + xs[1..] == xs
  {
  }

  /** Nothing in front of a sequence leaves it unchanged. */
  lemma EmptyThen<T>(xs: seq<T>)
    ensures [] + xs == xs
  {
  }

  /** The summed lengths of `parts`. */
  function TotalLength(parts: seq<string>): nat {
    if |parts| == 0 then 0 else |parts[0]| + TotalLength(parts[1..])
  }

  /** Where part `i` starts in the joined text: after each earlier part and
      the separator that follows it. */
  function PartStart(parts: seq<string>, sep: string, i: nat): nat
    requires i <= |parts|
  {
    if i == 0 then 0 else |parts[0]| + |sep| + PartStart(parts[1..], sep, i - 1)
  }

  /** Part `i` sits at `PartStart(i)` in `r`. */
  predicate PartsAt(parts: seq<string>, sep: string, r: string) {
    forall i :: 0 <= i < |parts| ==>
      PartStart(parts, sep, i) + |parts[i]| <= |r|
      && r[PartStart(parts, sep, i)..PartStart(parts, sep, i) + |parts[i]|] == parts[i]
  }

  /** Every part of `r` but the last is followed by the separator. */
  predicate SepsAt(parts: seq<string>, sep: string, r: string) {
    forall i :: 0 <= i < |parts| - 1 ==>
      PartStart(parts, sep, i) + |parts[i]| + |sep| <= |r|
      && r[PartStart(parts, sep, i) + |parts[i]|..PartStart(parts, sep, i) + |parts[i]| + |sep|] == sep
  }

  /** `strings.Join`: the parts with `sep` between consecutive ones. */
  function Join(parts: seq<string>, sep: string): (r: string)
    ensures |parts| == 0 ==> r == ""
    ensures |parts| > 0 ==> parts[0] <= r
    ensures |parts| > 0 ==> |r| == TotalLength(parts) + (|parts| - 1) * |sep|
  {
    if |parts| == 0 then ""
    else if |parts| == 1 then parts[0]
    else parts[0] + sep + Join(parts[1..], sep)
  }

  /** The joined text holds each part at its place with the separator after
      every part but the last; with the length from `Join`'s contract nothing
      else is in it. */
  lemma {:induction false} JoinPlacesParts(parts: seq<string>, sep: string)
    ensures PartsAt(parts, sep, Join(parts, sep))
    ensures SepsAt(parts, sep, Join(parts, sep))
    decreases |parts|
  {
    if |parts| == 1 {
      assert Join(parts, sep)[0..|parts[0]|] == parts[0];
    } else if |parts| >= 2 {
      var tail := Join(parts[1..], sep);
      JoinPlacesParts(parts[1..], sep);
      PartsAtHead(parts, sep, tail);
      SepsAtHead(parts, sep, tail);
    }
  }

  /** A first part and a separator in front of a text holding the other parts
      at their places hold all of them at their places. */
  lemma {:induction false} PartsAtHead(parts: seq<string>, sep: string, tail: string)
    requires |parts| >= 2
    requires PartsAt(parts[1..], sep, tail)
    ensures PartsAt(parts, sep, parts[0] + sep + tail)
  {
    var hd := parts[0] + sep;
    var r := hd + tail;
    assert r[0..|parts[0]|] == parts[0];
    forall i | 1 <= i < |parts|
      ensures PartStart(parts, sep, i) + |parts[i]| <= |r|
      ensures r[PartStart(parts, sep, i)..PartStart(parts, sep, i) + |parts[i]|] == parts[i]
    {
      var a := PartStart(parts[1..], sep, i - 1);
      assert parts[1..][i - 1] == parts[i];
      assert PartStart(parts, sep, i) == |hd| + a;
      SliceAfterPrefix(hd, tail, a, a + |parts[i]|);
    }
  }

  /** The same step for the separators: the one after the first part is new,
      the others are those of `tail`, shifted. */
  lemma {:induction false} SepsAtHead(parts: seq<string>, sep: string, tail: string)
    requires |parts| >= 2
    requires SepsAt(parts[1..], sep, tail)
    ensures SepsAt(parts, sep, parts[0] + sep + tail)
  {
    var hd := parts[0] + sep;
    var r := hd + tail;
    assert r[|parts[0]|..|hd|] == sep;
    forall i | 1 <= i < |parts| - 1
      ensures PartStart(parts, sep, i) + |parts[i]| + |sep| <= |r|
      ensures r[PartStart(parts, sep, i) + |parts[i]|..PartStart(parts, sep, i) + |parts[i]| + |sep|] == sep
    {
      var a := PartStart(parts[1..], sep, i - 1);
      var b := a + |parts[i]|;
      assert parts[1..][i - 1] == parts[i];
      assert PartStart(parts, sep, i) == |hd| + a;
      assert b + |sep| <= |tail| && tail[b..b + |sep|] == sep;
      SliceAfterPrefix(hd, tail, b, b + |sep|);
    }
  }

  /** A slice of `x + y` past all of `x` is a slice of `y`. */
  lemma SliceAfterPrefix(x: string, y: string, a: nat, b: nat)
    requires a <= b <= |y|
    ensures (x + y)[|x| + a..|x| + b] == y[a..b]
  {
  }

  lemma {:induction false} FieldsSkipsLeadingSpace(c: char, s: string)
    requires IsSpace(c)
    ensures Fields([c] + s) == Fields(s)
  {
    var cs := [c] + s;
    assert cs[1..] == s;
    assert cs[LeadingSpaces(cs)..] == s[LeadingSpaces(s)..];
  }

  lemma {:induction false} FieldsOfWordThen(w: string, rest: string)
    requires IsWord(w)
    requires |rest| == 0 || IsSpace(rest[0])
    ensures Fields(w + rest) == [w] + Fields(rest)
  {
    var s := w + rest;
    assert s[0] == w[0];
    assert LeadingSpaces(s) == 0;
    var k := WordLength(s);
    assert k == |w| by {
      assert forall i :: 0 <= i < |w| ==> s[i] == w[i];
      assert |rest| > 0 ==> s[|w|] == rest[0];
    }
    assert s[..k] == w;
    assert s[k..] == rest;
  }

  /** Joining words with single spaces and splitting the result into fields
      gives the words back. */
  lemma {:induction false} FieldsOfJoin(ws: seq<string>)
    requires forall i :: 0 <= i < |ws| ==> IsWord(ws[i])
    ensures Fields(Join(ws, " ")) == ws
    decreases |ws|
  {
    if |ws| == 0 {
      assert Fields("") == [];
    } else if |ws| == 1 {
      FieldsOfWordThen(ws[0], "");
      assert ws[0] + "" == ws[0];
      assert Fields("") == [];
    } else {
      var j := Join(ws[1..], " ");
      assert Join(ws, " ") == ws[0] + (" " + j) by {
        HeadThenTail(ws);
        JoinCons(ws[0], ws[1..], " ");
      }
      FieldsOfWordThen(ws[0], " " + j);
      FieldsSkipsLeadingSpace(' ', j);
      FieldsOfJoin(ws[1..]);
    }
  }

  // ---------------------------------------------------------------------------
  // Splitting on single delimiter characters (regexp.Split with a class, n = -1)

  /** Length of the longest prefix of `s` free of the characters in `delims`. */
  function SpanWithout(s: string, delims: set<char>): (k: nat)
    ensures k <= |s|
    ensures k < |s| ==> s[k] in delims
  {
    if |s| == 0 || s[0] in delims then 0 else 1 + SpanWithout(s[1..], delims)
  }

  predicate FreeOf(s: string, delims: set<char>) {
    forall i :: 0 <= i < |s| ==> s[i] !in delims
  }

  /** The span holds no delimiter. */
  lemma {:induction false} SpanIsFree(s: string, delims: set<char>)
    ensures FreeOf(s[..SpanWithout(s, delims)], delims)
    decreases |s|
  {
    if |s| > 0 && s[0] !in delims {
      var k := SpanWithout(s, delims);
      SpanIsFree(s[1..], delims);
      assert s[..k] == [s[0]] + s[1..][..k - 1];
    }
  }

  /** `regexp.MustCompile("[...]").Split(s, -1)`: the pieces of `s` between
      delimiter characters, empty pieces included. */
  function SplitAny(s: string, delims: set<char>): (ps: seq<string>)
    ensures |ps| >= 1
    ensures forall i :: 0 <= i < |ps| ==> FreeOf(ps[i], delims)
    decreases |s|
  {
    var k := SpanWithout(s, delims);
    SpanIsFree(s, delims);
    if k == |s| then
      assert s[..k] == s;
      [s]
    else [s[..k]] + SplitAny(s[k + 1..], delims)
  }

  /** The delimiter characters of `s`, in order. */
  function DelimitersIn(s: string, delims: set<char>): string {
    if |s| == 0 then "" else (if s[0] in delims then [s[0]] else "") + DelimitersIn(s[1..], delims)
  }

  /** Puts the removed delimiters back between the pieces. */
  function Interleave(ps: seq<string>, ds: string): string
    requires |ps| == |ds| + 1
  {
    if |ds| == 0 then ps[0] else ps[0] + [ds[0]] + Interleave(ps[1..], ds[1..])
  }

  lemma {:induction false} DelimitersOfFree(s: string, delims: set<char>)
    requires FreeOf(s, delims)
    ensures DelimitersIn(s, delims) == ""
    decreases |s|
  {
    if |s| > 0 {
      DelimitersOfFree(s[1..], delims);
    }
  }

  lemma {:induction false} DelimitersAppend(a: string, b: string, delims: set<char>)
    ensures DelimitersIn(a + b, delims) == DelimitersIn(a, delims) + DelimitersIn(b, delims)
    decreases |a|
  {
    if |a| == 0 {
      assert a + b == b;
    } else {
      var head := if a[0] in delims then [a[0]] else "";
      assert (a + b)[0] == a[0];
      assert (a + b)[1..] == a[1..] + b;
      assert DelimitersIn(a + b, delims) == head + DelimitersIn(a[1..] + b, delims);
      assert DelimitersIn(a, delims) == head + DelimitersIn(a[1..], delims);
      DelimitersAppend(a[1..], b, delims);
      assert head + (DelimitersIn(a[1..], delims) + DelimitersIn(b, delims))
          == (head + DelimitersIn(a[1..], delims)) + DelimitersIn(b, delims);
    }
  }

  /** The delimiters of `s` are the one ending its first piece followed by those of the rest. */
  lemma {:induction false} DelimitersAfterSpan(s: string, delims: set<char>)
    requires SpanWithout(s, delims) < |s|
    ensures var k := SpanWithout(s, delims);
      DelimitersIn(s, delims) == [s[k]] + DelimitersIn(s[k + 1..], delims)
  {
    var k := SpanWithout(s, delims);
    var rest := s[k + 1..];
    assert s == s[..k] + ([s[k]] + rest);
    DelimitersAppend(s[..k], [s[k]] + rest, delims);
    SpanIsFree(s, delims);
    DelimitersOfFree(s[..k], delims);
    assert ([s[k]] + rest)[1..] == rest;
  }

  lemma {:induction false} InterleaveCons(p: string, c: char, ps: seq<string>, ds: string)
    requires |ps| == |ds| + 1
    ensures Interleave([p] + ps, [c] + ds) == p + [c] + Interleave(ps, ds)
  {
    assert ([p] + ps)[1..] == ps;
    assert ([c] + ds)[1..] == ds;
  }

  /** Splitting loses only the delimiters: they and the pieces rebuild the input. */
  lemma {:induction false} SplitAnyRebuilds(s: string, delims: set<char>)
    ensures |SplitAny(s, delims)| == |DelimitersIn(s, delims)| + 1
    ensures Interleave(SplitAny(s, delims), DelimitersIn(s, delims)) == s
    decreases |s|
  {
    var k := SpanWithout(s, delims);
    if k == |s| {
      SpanIsFree(s, delims);
      assert s[..k] == s;
      DelimitersOfFree(s, delims);
    } else {
      var rest := s[k + 1..];
      var ps := SplitAny(rest, delims);
      var ds := DelimitersIn(rest, delims);
      assert SplitAny(s, delims) == [s[..k]] + ps;
      assert DelimitersIn(s, delims) == [s[k]] + ds by {
        DelimitersAfterSpan(s, delims);
      }
      assert |ps| == |ds| + 1 && Interleave(ps, ds) == rest by {
        SplitAnyRebuilds(rest, delims);
      }
      assert Interleave([s[..k]] + ps, [s[k]] + ds) == s[..k] + [s[k]] + rest by {
        InterleaveCons(s[..k], s[k], ps, ds);
      }
      assert s == s[..k] + [s[k]] + rest;
    }
  }

  /** A delimiter-free piece followed by a delimiter is split off as the first piece. */
  lemma {:induction false} SplitAnyStep(a: string, c: char, b: string, delims: set<char>)
    requires FreeOf(a, delims) && c in delims
    ensures SplitAny(a + [c] + b, delims) == [a] + SplitAny(b, delims)
  {
    var s := a + [c] + b;
    var k := SpanWithout(s, delims);
    assert k == |a| by {
      SpanIsFree(s, delims);
      assert forall i :: 0 <= i < |a| ==> s[i] == a[i];
      assert s[|a|] == c;
    }
    assert s[..k] == a;
    assert s[k + 1..] == b;
  }

  // ---------------------------------------------------------------------------
  // Splitting on a separator string (strings.Split)

  /** `sep` occurs in `s` starting at index `j`. */
  predicate OccursAt(s: string, sep: string, j: nat) {
    j + |sep| <= |s| && s[j..j + |sep|] == sep
  }

  /** `sep` occurs nowhere in `s`. */
  predicate FreeOfSep(s: string, sep: string) {
    forall j: nat :: j <= |s| ==> !OccursAt(s, sep, j)
  }

  /** `strings.Index` from position `from` on: the leftmost occurrence of `sep`. */
  function IndexFrom(s: string, sep: string, from: nat): (r: Option<nat>)
    requires from <= |s|
    ensures r.Some? ==> from <= r.value && OccursAt(s, sep, r.value)
    ensures forall j: nat :: from <= j && OccursAt(s, sep, j) ==> r.Some? && r.value <= j
    decreases |s| - from
  {
    if OccursAt(s, sep, from) then Some(from)
    else if from == |s| then None
    else IndexFrom(s, sep, from + 1)
  }

  /** Every infix of a separator-free string is separator-free. */
  lemma {:induction false} FreeOfSepInfix(s: string, sep: string, a: nat, b: nat)
    requires a <= b <= |s|
    requires FreeOfSep(s, sep)
    ensures FreeOfSep(s[a..b], sep)
  {
    forall j: nat | OccursAt(s[a..b], sep, j)
      ensures false
    {
      forall i | 0 <= i < |sep|
        ensures s[a + j + i] == sep[i]
      {
        assert s[a..b][j..j + |sep|][i] == s[a + j + i];
      }
      assert s[a + j..a + j + |sep|] == sep;
      assert OccursAt(s, sep, a + j);
    }
  }

  /** `strings.Split(s, sep)` for a non-empty `sep`: the pieces between the
      leftmost non-overlapping occurrences of `sep`. */
  function SplitOn(s: string, sep: string): (ps: seq<string>)
    requires |sep| > 0
    ensures |ps| >= 1
    ensures forall i :: 0 <= i < |ps| ==> FreeOfSep(ps[i], sep)
    ensures forall i :: 0 <= i < |ps| - 1 ==> FreeOfSep(ps[i] + sep[..|sep| - 1], sep)
    decreases |s|
  {
    match IndexFrom(s, sep, 0)
    case None => [s]
    case Some(k) =>
      PrefixBeforeFirstIsFree(s, sep, k);
      CutIsLeftmost(s, sep, k);
      [s[..k]] + SplitOn(s[k + |sep|..], sep)
  }

  /** The leftmost occurrence of `sep` is the first place it is completed: the
      text before it, followed by all of `sep` but its last character, holds no
      occurrence. */
  lemma {:induction false} CutIsLeftmost(s: string, sep: string, k: nat)
    requires |sep| > 0
    requires IndexFrom(s, sep, 0) == Some(k)
    ensures FreeOfSep(s[..k] + sep[..|sep| - 1], sep)
  {
    var m := k + |sep| - 1;
    assert s[k..k + |sep|] == sep;
    assert s[..k] + sep[..|sep| - 1] == s[..m] by {
      assert s[k..m] == s[k..k + |sep|][..|sep| - 1];
      assert s[..m] == s[..k] + s[k..m];
    }
    forall j: nat | OccursAt(s[..m], sep, j)
      ensures false
    {
      assert s[..m][j..j + |sep|] == s[j..j + |sep|];
      assert OccursAt(s, sep, j);
    }
  }

  lemma {:induction false} PrefixBeforeFirstIsFree(s: string, sep: string, k: nat)
    requires |sep| > 0
    requires IndexFrom(s, sep, 0) == Some(k)
    ensures k <= |s| && FreeOfSep(s[..k], sep)
  {
    forall j: nat | OccursAt(s[..k], sep, j)
      ensures false
    {
      assert s[..k][j..j + |sep|] == s[j..j + |sep|];
      assert OccursAt(s, sep, j);
    }
  }

  /** Joining the pieces of a split with the separator gives the input back. */
  lemma {:induction false} JoinSplitOn(s: string, sep: string)
    requires |sep| > 0
    ensures Join(SplitOn(s, sep), sep) == s
    decreases |s|
  {
    match IndexFrom(s, sep, 0)
    case None =>
    case Some(k) =>
      var rest := s[k + |sep|..];
      var tail := SplitOn(rest, sep);
      JoinSplitOn(rest, sep);
      assert SplitOn(s, sep) == [s[..k]] + tail;
      JoinCons(s[..k], tail, sep);
      ThreeSlices(s, k, k + |sep|);
  }

  /** Joining a first part in front of at least one more puts the separator between. */
  lemma JoinCons(p: string, tail: seq<string>, sep: string)
    requires |tail| >= 1
    ensures Join([p] + tail, sep) == p + sep + Join(tail, sep)
  {
    assert ([p] + tail)[1..] == tail;
  }

  lemma ThreeSlices<T>(s: seq<T>, a: nat, b: nat)
    requires a <= b <= |s|
    ensures s == s[..a] + s[a..b] + s[b..]
  {
  }
}

=== FILE: windowing.dfy ===
/** The sliding window shared by the three chunking strategies: over `n` units,
    windows of `size` units start at 0, `step`, `2*step`, ..., where
    `step = size - overlap` in Go's 64-bit `int`, clamped to 1 when that is not
    positive. Windows are
    clamped to the unit count, and the walk stops after the first window that
    reaches it or once the start passes the end. */
module Windowing {

  /** The half-open unit range `[start, end)` of one chunk. */
  datatype Window = Window(start: nat, end: nat)

  function Min(a: int, b: int): int {
    if a <= b then a else b
  }

  /** The range of Go's `int` on a 64-bit platform. */
  const IntMin: int := -0x8000_0000_0000_0000
  const IntMax: int := 0x7FFF_FFFF_FFFF_FFFF

  /** A value Go's `int` can hold. */
  type GoInt = x: int | IntMin <= x <= IntMax

  /** `x` brought into Go's `int` range by two's-complement wrap-around, as
      Go's integer arithmetic does on overflow. */
  function Wrap(x: int): (r: GoInt)
    ensures IntMin <= x <= IntMax ==> r == x
    ensures IntMax < x <= IntMax + 0x1_0000_0000_0000_0000 ==> r == x - 0x1_0000_0000_0000_0000
    ensures IntMin - 0x1_0000_0000_0000_0000 <= x < IntMin ==> r == x + 0x1_0000_0000_0000_0000
  {
    (x - IntMin) % 0x1_0000_0000_0000_0000 + IntMin
  }

  /** Distance between consecutive window starts: `size - overlap` computed in
      Go's `int`, and 1 when that is not positive. */
  function Step(size: int, overlap: int): (step: nat)
    ensures step >= 1
    ensures Wrap(size - overlap) > 0 ==> step == Wrap(size - overlap)
    ensures Wrap(size - overlap) <= 0 ==> step == 1
    ensures IntMin <= size - overlap <= IntMax ==> step == if size - overlap > 0 then size - overlap else 1
  {
    var d := Wrap(size - overlap);
    if d <= 0 then 1 else d
  }

  /** Every window of `ws` is a range within `n` units. */
  predicate InRange(ws: seq<Window>, n: nat) {
    forall k :: 0 <= k < |ws| ==> ws[k].start <= ws[k].end <= n
  }

  /** The windows the loop emits from start index `i` on. A negative `size` is
      only admissible when no window is emitted at all: otherwise the slice
      `units[i:i+size]` is out of range. */
  function WindowsFrom(i: nat, n: nat, size: int, step: nat): (ws: seq<Window>)
    requires step >= 1
    requires size >= 0 || i >= n
    ensures i < n <==> |ws| > 0
    decreases n - i
  {
    if i >= n then []
    else
      var end := Min(i + size, n);
      if end == n then [Window(i, end)] else [Window(i, end)] + WindowsFrom(i + step, n, size, step)
  }

  /** The walk from `i` emits the window at `i`, then continues at `i + step`
      unless that window reached the end. */
  lemma {:induction false} WindowsFromUnfold(i: nat, n: nat, size: nat, step: nat)
    requires step >= 1 && i < n
    ensures i + size >= n ==> WindowsFrom(i, n, size, step) == [Window(i, n)]
    ensures i + size < n ==> WindowsFrom(i, n, size, step) == [Window(i, i + size)] + WindowsFrom(i + step, n, size, step)
  {
  }

  /** Window `k` of a walk from `i` starts `k` steps after `i`, before `n`,
      and ends `size` units later or at `n`, whichever comes first. */
  lemma {:induction false} WindowAt(i: nat, n: nat, size: int, step: nat, k: nat)
    requires step >= 1
    requires size >= 0 || i >= n
    requires k < |WindowsFrom(i, n, size, step)|
    ensures WindowsFrom(i, n, size, step)[k] == Window(i + k * step, Min(i + k * step + size, n))
    ensures i + k * step < n
    decreases k
  {
    if k > 0 {
      var rest := WindowsFrom(i + step, n, size, step);
      WindowsFromUnfold(i, n, size, step);
      assert WindowsFrom(i, n, size, step)[k] == rest[k - 1];
      WindowAt(i + step, n, size, step, k - 1);
      assert (i + step) + (k - 1) * step == i + k * step;
    }
  }

  /** Every window of a walk lies within the `n` units. */
  lemma {:induction false} WindowsFromInRange(i: nat, n: nat, size: int, step: nat)
    requires step >= 1
    requires size >= 0 || i >= n
    ensures InRange(WindowsFrom(i, n, size, step), n)
  {
    var ws := WindowsFrom(i, n, size, step);
    forall k | 0 <= k < |ws|
      ensures ws[k].start <= ws[k].end <= n
    {
      WindowAt(i, n, size, step, k);
    }
  }

  /** Only the last window of a walk may reach `n`. */
  lemma {:induction false} EarlierWindowStopsShort(i: nat, n: nat, size: int, step: nat, k: nat)
    requires step >= 1
    requires size >= 0 || i >= n
    requires k + 1 < |WindowsFrom(i, n, size, step)|
    ensures WindowsFrom(i, n, size, step)[k].end < n
    decreases k
  {
    var rest := WindowsFrom(i + step, n, size, step);
    WindowsFromUnfold(i, n, size, step);
    assert i + size < n;
    if k > 0 {
      assert WindowsFrom(i, n, size, step)[k] == rest[k - 1];
      EarlierWindowStopsShort(i + step, n, size, step, k - 1);
    }
  }

  /** The walk stops at a window that reaches `n` or whose successor would
      start at or past `n`. */
  lemma {:induction false} LastWindowStops(i: nat, n: nat, size: int, step: nat)
    requires step >= 1
    requires size >= 0 || i >= n
    ensures var ws := WindowsFrom(i, n, size, step);
      |ws| > 0 ==> ws[|ws| - 1].end == n || ws[|ws| - 1].start + step >= n
    decreases n - i
  {
    if i < n {
      var ws := WindowsFrom(i, n, size, step);
      WindowsFromUnfold(i, n, size, step);
      if i + size < n {
        var rest := WindowsFrom(i + step, n, size, step);
        if |rest| == 0 {
          assert ws[|ws| - 1] == Window(i, i + size);
        } else {
          LastWindowStops(i + step, n, size, step);
          assert ws[|ws| - 1] == rest[|rest| - 1];
        }
      } else {
        assert ws[|ws| - 1] == Window(i, n);
      }
    }
  }

  /** All windows over `n` units. */
  function Windows(n: nat, size: int, overlap: int): (ws: seq<Window>)
    requires size >= 0 || n == 0
    ensures |ws| > 0 <==> n > 0
    ensures n > 0 ==> ws[0] == Window(0, Min(size, n))
  {
    WindowsFrom(0, n, size, Step(size, overlap))
  }

  lemma {:induction false} WindowsInRange(n: nat, size: int, overlap: int)
    requires size >= 0 || n == 0
    ensures InRange(Windows(n, size, overlap), n)
  {
    WindowsFromInRange(0, n, size, Step(size, overlap));
  }

  /** Window k covers units `[k*step, min(k*step + size, n))`; with a positive
      size every window holds between 1 and `size` units. */
  lemma {:induction false} WindowShape(n: nat, size: int, overlap: int, k: nat)
    requires size >= 0 || n == 0
    requires k < |Windows(n, size, overlap)|
    ensures Windows(n, size, overlap)[k].start == k * Step(size, overlap)
    ensures Windows(n, size, overlap)[k].end == Min(k * Step(size, overlap) + size, n)
    ensures size > 0 ==> 1 <= Windows(n, size, overlap)[k].end - Windows(n, size, overlap)[k].start <= size
  {
    WindowAt(0, n, size, Step(size, overlap), k);
  }

  /** With a non-negative overlap and a positive size the last window ends
      exactly at the unit count, and no earlier window reaches it, so the final
      window is emitted once. */
  lemma {:induction false} LastWindowEndsAtCount(n: nat, size: GoInt, overlap: GoInt)
    requires n > 0 && size > 0 && Step(size, overlap) <= size
    ensures var ws := Windows(n, size, overlap);
      |ws| > 0 && ws[|ws| - 1].end == n && forall k :: 0 <= k < |ws| - 1 ==> ws[k].end < n
  {
    var step := Step(size, overlap);
    var ws := Windows(n, size, overlap);
    LastWindowStops(0, n, size, step);
    WindowAt(0, n, size, step, |ws| - 1);
    forall k | 0 <= k < |ws| - 1
      ensures ws[k].end < n
    {
      EarlierWindowStopsShort(0, n, size, step, k);
    }
  }

  /** Consecutive windows share exactly `size - step` units: the next window
      starts inside the previous one, which is never clamped. */
  lemma {:induction false} ConsecutiveWindowsOverlap(n: nat, size: GoInt, overlap: GoInt, k: nat)
    requires size > 0 && Step(size, overlap) <= size
    requires k + 1 < |Windows(n, size, overlap)|
    ensures var ws := Windows(n, size, overlap);
      && ws[k].start < ws[k + 1].start <= ws[k].end <= ws[k + 1].end
      && ws[k].end - ws[k + 1].start == size - Step(size, overlap)
  {
    var step := Step(size, overlap);
    WindowAt(0, n, size, step, k);
    WindowAt(0, n, size, step, k + 1);
    EarlierWindowStopsShort(0, n, size, step, k);
    assert (k + 1) * step == k * step + step;
  }

  /** The number of windows: the last one is the first whose nominal end
      `k*step + size` reaches `n`. */
  lemma {:induction false} WindowCount(n: nat, size: GoInt, overlap: GoInt)
    requires size > 0 && Step(size, overlap) <= size && n > size
    ensures var ws := Windows(n, size, overlap);
      var step := Step(size, overlap);
      && |ws| >= 2
      && (|ws| - 1) * step + size >= n
      && (|ws| - 2) * step + size < n
  {
    var ws := Windows(n, size, overlap);
    var step := Step(size, overlap);
    LastWindowEndsAtCount(n, size, overlap);
    WindowAt(0, n, size, step, 0);
    var m := |ws| - 1;
    WindowAt(0, n, size, step, m);
    WindowAt(0, n, size, step, m - 1);
    assert ws[m - 1].end < n;
  }

  /** When the overlap is at least the size the step clamps to 1 and the walk
      emits exactly `n - size + 1` windows. */
  lemma {:induction false} ClampedWindowCount(n: nat, size: GoInt, overlap: GoInt)
    requires size > 0 && Wrap(size - overlap) <= 0 && n > size
    ensures |Windows(n, size, overlap)| == n - size + 1
  {
    WindowCount(n, size, overlap);
  }

  /** Unit `u` lies in some window of `ws`. */
  ghost predicate Covered(ws: seq<Window>, u: nat) {
    exists k :: 0 <= k < |ws| && ws[k].start <= u < ws[k].end
  }

  /** With a non-negative overlap every unit from the start of window `j` on
      lies in window `j` or a later one; `k` is the first such window. */
  lemma {:induction false} WindowsFromCover(n: nat, size: int, step: nat, j: nat, u: nat)
    returns (k: nat)
    requires 1 <= step <= size
    requires j < |WindowsFrom(0, n, size, step)|
    requires WindowsFrom(0, n, size, step)[j].start <= u < n
    ensures j <= k < |WindowsFrom(0, n, size, step)|
    ensures WindowsFrom(0, n, size, step)[k].start <= u < WindowsFrom(0, n, size, step)[k].end
    decreases |WindowsFrom(0, n, size, step)| - j
  {
    var ws := WindowsFrom(0, n, size, step);
    WindowAt(0, n, size, step, j);
    if u < ws[j].end {
      k := j;
    } else {
      LastWindowStops(0, n, size, step);
      assert j < |ws| - 1;
      WindowAt(0, n, size, step, j + 1);
      assert (j + 1) * step == j * step + step;
      k := WindowsFromCover(n, size, step, j + 1, u);
    }
  }

  /** With a non-negative overlap every unit lies in some window. */
  lemma {:induction false} WindowsCoverAllUnits(n: nat, size: GoInt, overlap: GoInt, u: nat)
    requires size > 0 && Step(size, overlap) <= size && u < n
    ensures Covered(Windows(n, size, overlap), u)
  {
    WindowAt(0, n, size, Step(size, overlap), 0);
    var k := WindowsFromCover(n, size, Step(size, overlap), 0, u);
  }

  /** An overlap of -2^63 makes `size - overlap` overflow Go's `int` and wrap to
      a negative value, so the step clamps to 1: three units in windows of one
      give three windows, where an unbounded step would give only the first. */
  lemma LowestOverlapWrapsToStepOne()
    ensures Step(1, IntMin) == 1
    ensures Windows(3, 1, IntMin) == [Window(0, 1), Window(1, 2), Window(2, 3)]
  {
    WindowsFromUnfold(0, 3, 1, 1);
    WindowsFromUnfold(1, 3, 1, 1);
    WindowsFromUnfold(2, 3, 1, 1);
  }

  /** Twelve units, windows of five, overlap two: step three and four windows. */
  lemma TwelveUnitsFiveWideOverlapTwo()
    ensures Windows(12, 5, 2) == [Window(0, 5), Window(3, 8), Window(6, 11), Window(9, 12)]
  {
  }
}
